=== FILE: README.md ===
# NagaController remapping engine in Dafny

This project models the event-correlation and synthetic-input engine of
NagaController, a macOS utility that turns the buttons of a Razer Naga mouse
into user-defined actions and keeps the mouse's own number-key keystrokes
away from other applications. The engine has three cooperating state
machines. Each is modelled as pure step functions from (state, input) to
(new state, ordered output). Time is integer milliseconds.

- **HID capture** (`hid_listener.dfy`, module `HidListener`). It matches
  devices by vendor or product name. It maps keyboard-page usages to buttons
  1..12 and decodes the DPI bits into buttons 13/14. Synthetic buttons are
  forwarded on edges only. It keeps the press-timestamp ledger with its
  1000 ms "recent" window. A tilt debouncer with a 250 ms cooldown turns the
  noisy −1/0/+1 axis into one press/release pair of buttons 15/16 per
  gesture. Requests for the dispatcher come back as a list of `Dispatch`
  values.
- **Event tap** (`event_tap.dfy`, module `EventTapManager`). For each key
  event it decides whether to pass it through or swallow it. It blocks
  auto-repeat with the set of held buttons. It confirms device origin with
  at most six ledger queries, given as a list of answers. It also models
  installation, with the fallback from a blocking tap to a listen-only one,
  and the remapping switch.
- **Dispatcher** (`button_mapper.dfy`, module `ButtonMapper`). It translates
  modifier names to flags. It resolves key codes and taps strokes, types
  text, pastes, runs macros and performs each kind of binding. Its hold
  table replays, on release, exactly the code and flags used at press time.
  Every OS effect (post key event, open app, spawn shell, pasteboard, sleep)
  is an element of an output trace.
- **Engine** (`engine.dfy`) wires the three together as one sequential
  machine. It proves the end-to-end scenarios: hold consistency with
  auto-repeat, the correlation window, and unmapped buttons.

`base.dfy` holds the shared vocabulary: `Option`, the 16-bit `KeyCode`,
flags as a set of a `Flag` enum, and ASCII lower-casing and substring
search. `actions.dfy` holds bindings, effects, dispatch requests, the
collaborator lookups, and `EdgeTrace`, the "strictly alternating
press/release" predicate used by the HID and tap invariants.

Lookups whose code is not part of this model are parameters: key identifier
to key code, character to key stroke, key code to button, the flags a fresh
event carries, the "remapping enabled" configuration switch, and whether the
OS grants each kind of tap.

## Model

| member | source | states |
|---|---|---|
| HidListener.IsNagaDevice | Sources/NagaController/HID/HIDListener.swift:206-212 | Razer vendor 0x1532 or vendor 0x068e alone makes a device a Naga; any other device needs a product name to be one |
| HidListener.NagaDeviceByName | Sources/NagaController/HID/HIDListener.swift:206-212 | A device with another vendor is a Naga iff its lower-cased product name contains "naga" at some position |
| HidListener.ButtonForUsage | Sources/NagaController/HID/HIDListener.swift:224-242 | A usage maps to a button iff it is 0x1E..0x27, 0x2D or 0x2E, and the button is in 1..12 |
| HidListener.UsageTableInverse | Sources/NagaController/HID/HIDListener.swift:224-242 | The table and its inverse (button 1..10 → 0x1D+b, 11 → 0x2D, 12 → 0x2E) agree in both directions |
| HidListener.UsageTableInjective | Sources/NagaController/HID/HIDListener.swift:224-242 | No two usages map to the same button |
| HidListener.DpiMasks | Sources/NagaController/HID/HIDListener.swift:79-82 | DPI-up is pressed iff raw & 0x80 ≠ 0 and DPI-down iff raw & 0x40 ≠ 0, on the two's-complement low byte |
| HidListener.Record | Sources/NagaController/HID/HIDListener.swift:59-64 | Recording stamps b with now and leaves every other entry as it was |
| HidListener.WasRecentPress | Sources/NagaController/HID/HIDListener.swift:196-204 | Only a recorded button can be recent, and a recorded one is recent exactly while its stamp lies at most 1000 ms before now |
| HidListener.RecordThenQuery | Sources/NagaController/HID/HIDListener.swift:196-204 | After recording b at t, b is recent at now iff now − t ≤ 1000 ms; other buttons' answers are unchanged |
| HidListener.AbsentIsNotRecent | Sources/NagaController/HID/HIDListener.swift:196-204 | A button with no ledger entry is never recent |
| HidListener.HandleSynthetic | Sources/NagaController/HID/HIDListener.swift:173-194 | With no edge, nothing changes and nothing is sent. On an edge only b's stored state changes, a press stamps the ledger, and one request of the edge's kind is sent iff remapping is on |
| HidListener.HandleSyntheticAlternates | Sources/NagaController/HID/HIDListener.swift:173-194 | With remapping on, the requests sent alternate press/release with every button's stored state |
| HidListener.TiltStep | Sources/NagaController/HID/HIDListener.swift:91-116 | Fires left iff a new gesture starts with −1 and right iff with +1. A new gesture needs last = 0, value ≠ 0, fired clear and the 250 ms cooldown. Releases iff last ≠ 0, value = 0 and fired. It stamps the fire time, and last value always becomes the input |
| HidListener.HandleTilt | Sources/NagaController/HID/HIDListener.swift:118-131 | Only buttons 15 and 16 change. No decision: only the debouncer moves and nothing is sent. A left fire ends with 15 held and 16 released, sending a release of 16 if it was held and then a press of 15 if it was not; a right fire is the mirror image; a gesture's end releases both, left first; with remapping off nothing is sent |
| HidListener.TiltReportEdges | Sources/NagaController/HID/HIDListener.swift:95-131 | From a state satisfying the tilt invariant, a left gesture start sends exactly a press of 15, a right one exactly a press of 16, a gesture's end releases whichever is held, and a report with no decision sends nothing and changes no button |
| HidListener.HandleValue | Sources/NagaController/HID/HIDListener.swift:66-171 | Reports from other devices change nothing; keyboard-page reports dispatch nothing and leave synthetic and tilt state alone; with remapping off no report dispatches anything; a Naga report on any element other than the DPI and tilt cookies changes nothing |
| HidListener.KeyboardReportLedger | Sources/NagaController/HID/HIDListener.swift:144-162 | A keyboard-page report stamps exactly its button iff it is a nonzero value from a Naga with a mapped usage; otherwise the state is unchanged |
| HidListener.DpiReportEdges | Sources/NagaController/HID/HIDListener.swift:76-82 | A DPI report stores its decoded bit for button 13/14 and sends the matching press/release only when that bit changed |
| HidListener.HandleValuePreservesTiltInvariant | Sources/NagaController/HID/HIDListener.swift:95-131 | Every report keeps both tilt buttons from being held at once, and keeps them released while no gesture is in progress |
| HidListener.HandleValueAlternates | Sources/NagaController/HID/HIDListener.swift:75-131 | With remapping on, every report's requests alternate press/release per button in step with the stored state |
| HidListener.RunPreservesTiltInvariant | Sources/NagaController/HID/HIDListener.swift:95-131 | The tilt invariant holds after any sequence of reports |
| HidListener.TiltInvariantFromStart | Sources/NagaController/HID/HIDListener.swift:95-131 | From the start-up state (no button held, no gesture in progress), the tilt invariant holds after any sequence of reports |
| HidListener.RunAlternates | Sources/NagaController/HID/HIDListener.swift:173-194 | With remapping on throughout, no run presses a synthetic button twice without a release, or releases one not pressed |
| HidListener.TiltBurstIsOneGesture | Sources/NagaController/HID/HIDListener.swift:84-130 | The input −1, 0, −1, 0 within the cooldown sends exactly [press 15, release 15] |
| HidListener.CooldownSuppressesNextGesture | Sources/NagaController/HID/HIDListener.swift:100-105 | A tilt less than 250 ms after the last gesture fired sends nothing and does not fire |
| ButtonMapper.UpdateMapping | Sources/NagaController/ButtonMapping/ButtonMapper.swift:18-21 | Replacing the bindings keeps the holds in flight |
| ButtonMapper.ModifierFlag | Sources/NagaController/ButtonMapping/ButtonMapper.swift:121-135 | The name table, ignoring case: "cmd"/"command" give Command, "shift" Shift, "alt"/"option" Alternate, "ctrl"/"control" Control, "fn" the Fn flag, and every other name gives nothing (each as an if-and-only-if) |
| ButtonMapper.ModifierFlags | Sources/NagaController/ButtonMapping/ButtonMapper.swift:121-135 | The result is exactly the set of flags of the known names in the list, and only named modifiers |
| ButtonMapper.ModifierFlagsSetOnly | Sources/NagaController/ButtonMapping/ButtonMapper.swift:121-135 | Lists with the same names give the same flags, whatever their order and repetition |
| ButtonMapper.ModifierFlagIgnoresCase | Sources/NagaController/ButtonMapping/ButtonMapper.swift:123-130 | Names equal up to letter case give the same flag |
| ButtonMapper.SendKeyStroke | Sources/NagaController/ButtonMapping/ButtonMapper.swift:93-119 | No effect iff no key code resolves (the explicit code is preferred). Otherwise exactly a down then an up of that code, both with fresh flags ∪ stroke modifiers ∪ extra |
| ButtonMapper.SendStrokes | Sources/NagaController/ButtonMapping/ButtonMapper.swift:76-79 | Sending a list produces only complete down/up taps, at most one per stroke |
| ButtonMapper.EffectiveKeyCode | Sources/NagaController/ButtonMapping/ButtonMapper.swift:114-119 | A stroke's explicit key code always wins; the identifier lookup is used only without one, and there is no code iff neither gives one |
| ButtonMapper.SendStrokesOne | Sources/NagaController/ButtonMapping/ButtonMapper.swift:76-79 | A one-stroke list sends exactly that stroke's tap, so with the append lemma every stroke is tapped by itself in order |
| ButtonMapper.SendStrokesAppend | Sources/NagaController/ButtonMapping/ButtonMapper.swift:76-79 | Strokes are sent in list order: sending a + b is sending a, then b |
| ButtonMapper.TypeText | Sources/NagaController/ButtonMapping/ButtonMapper.swift:170-175 | Typing produces only complete taps, at most one per character |
| ButtonMapper.TypeTextAppend | Sources/NagaController/ButtonMapping/ButtonMapper.swift:170-175 | Characters are typed in order: typing a + b is typing a, then b |
| ButtonMapper.TypeTextChar | Sources/NagaController/ButtonMapping/ButtonMapper.swift:171-174 | A character with no key stroke is skipped; any other is typed as exactly its stroke's tap with no extra modifiers |
| ButtonMapper.PasteText | Sources/NagaController/ButtonMapping/ButtonMapper.swift:163-168 | Clears the pasteboard, sets the text, then taps "v" exactly once with Command added to the fresh flags; when "v" has no key code only the pasteboard is changed |
| ButtonMapper.MacroStepEffects | Sources/NagaController/ButtonMapping/ButtonMapper.swift:150-159 | key → one stroke, text → paste, delay → one sleep; a missing payload or an unknown kind does nothing |
| ButtonMapper.RunMacro | Sources/NagaController/ButtonMapping/ButtonMapper.swift:148-161 | A macro only taps keys, fills the pasteboard and sleeps: none of its effects opens an application or spawns a process |
| ButtonMapper.RunMacroOne | Sources/NagaController/ButtonMapping/ButtonMapper.swift:149-160 | A one-step macro has exactly the effects of that step, so with the append lemma every macro is its steps' effects in order |
| ButtonMapper.RunMacroAppend | Sources/NagaController/ButtonMapping/ButtonMapper.swift:148-161 | Steps run strictly in order: running a + b is running a, then b |
| ButtonMapper.MacroRunsInOrder | Sources/NagaController/ButtonMapping/ButtonMapper.swift:148-168 | {key A, delay 50, text "x"} taps A, sleeps 50 ms, then clears and sets the pasteboard and taps Cmd+V |
| ButtonMapper.Perform | Sources/NagaController/ButtonMapping/ButtonMapper.swift:74-91 | A key sequence taps each stroke in order and a text snippet types each character's stroke, both with no extra modifiers; a macro runs its steps; an app is one open and a command one zsh -lc spawn; a profile switch does nothing |
| ButtonMapper.PasteUsesPasteBinding | Sources/NagaController/ButtonMapping/ButtonMapper.swift:163-168 | The keystroke a paste taps is exactly what performing the built-in Paste binding of button 2 sends |
| ButtonMapper.Handle | Sources/NagaController/ButtonMapping/ButtonMapper.swift:23-29 | An unbound button does nothing and a bound one performs its binding; `PressWithoutHoldIsHandle` ties it to the press handler |
| ButtonMapper.PressWithoutHoldIsHandle | Sources/NagaController/ButtonMapping/ButtonMapper.swift:23-29 | For a button that starts no hold, a press with no physically held modifiers (or of a binding that is not a key sequence) does exactly what `handle` does and leaves the dispatcher state unchanged |
| ButtonMapper.HoldFor | Sources/NagaController/ButtonMapping/ButtonMapper.swift:38-50 | The hold's code is the stroke's key code, and its flags include the fresh flags, the mapped modifiers and the held modifiers |
| ButtonMapper.HandlePress | Sources/NagaController/ButtonMapping/ButtonMapper.swift:32-61 | Unbound: nothing. Single resolvable stroke: exactly one key-down, whose code and flags are stored as b's hold. Other key sequences tap every stroke with the held modifiers and create no hold. Other bindings are performed |
| ButtonMapper.HandleRelease | Sources/NagaController/ButtonMapping/ButtonMapper.swift:64-72 | With a hold: one key-up with exactly the stored code and flags, and only b's entry is removed. Without one: a no-op |
| ButtonMapper.PressReleaseRoundTrip | Sources/NagaController/ButtonMapping/ButtonMapper.swift:32-72 | Press then release of a hold binding is one down and one up of the same key with identical flags, and the dispatcher returns to its start state |
| ButtonMapper.ReleaseIgnoresRebinding | Sources/NagaController/ButtonMapping/ButtonMapper.swift:64-72 | Rebinding a held button does not change the key-up its release sends |
| ButtonMapper.ModifierUnion | Sources/NagaController/ButtonMapping/ButtonMapper.swift:41-47 | Pressing a Cmd+C binding while Shift is held posts one key-down carrying both Command and Shift |
| EventTapManager.ConfirmRecentPress | Sources/NagaController/EventTap/EventTapManager.swift:110-118 | The retry loop confirms iff one of the first six answers does. It makes 1..6 queries, stopping at the first confirmation, and all six when none confirms |
| EventTapManager.Callback | Sources/NagaController/EventTap/EventTapManager.swift:86-137 | Covers every event kind. Tap-disabled events re-arm the tap and pass. Non-button and other events pass. An auto-repeat returns nothing (is swallowed) with no change. A new key-down is swallowed iff the tap blocks and the ledger confirms, and then the button is held and pressed. A key-up of a held button returns nothing and is un-held, and released only when blocking (in listen-only mode returning nothing does not stop the event). Anything that passes forwards nothing and leaves the held set unchanged |
| EventTapManager.SuppressedPair | Sources/NagaController/EventTap/EventTapManager.swift:104-132 | A confirmed key-down and its key-up are both swallowed, forward one press and one release, and restore the tap state |
| EventTapManager.CallbackAlternates | Sources/NagaController/EventTap/EventTapManager.swift:104-136 | In blocking mode every callback's requests alternate press/release per button with the held set |
| EventTapManager.ListenOnlyPassesEverything | Sources/NagaController/EventTap/EventTapManager.swift:104-136 | A listen-only tap holding no button passes every event of any run and forwards nothing |
| EventTapManager.BlockingRunAlternates | Sources/NagaController/EventTap/EventTapManager.swift:104-136 | In blocking mode a whole run forwards strictly alternating press/release per button |
| EventTapManager.Start | Sources/NagaController/EventTap/EventTapManager.swift:27-73 | Suppression is possible iff blocking was requested and granted. A refused blocking tap falls back to listen-only with the prompt. No tap exists only when every attempt was refused |
| EventTapManager.SetRemappingEnabled | Sources/NagaController/EventTap/EventTapManager.swift:14-23 | Setting the current value does nothing. Turning off makes the tap listen-only. Turning on enables remapping iff it was already on or blocking is granted |
| Engine.LedgerAnswers | Sources/NagaController/EventTap/EventTapManager.swift:110-117 | The first query answers whether the event's button is recent in the ledger at the event's time, and the re-queries follow it in order |
| Engine.Step | Sources/NagaController/HID/HIDListener.swift:182-193 | Reports never touch the tap, key events never touch the capture state, and bindings are only read; with remapping switched off a report reaches neither press nor release handling, so nothing is performed; an event the tap passes through performs nothing |
| Engine.DpiPressReachesDispatcher | Sources/NagaController/HID/HIDListener.swift:185-187 | With remapping on, a DPI-up press edge from a Naga performs exactly what the dispatcher's press of button 13 with no modifiers performs |
| Engine.TiltLeftReachesDispatcher | Sources/NagaController/HID/HIDListener.swift:119-122 | A left tilt starting a gesture while 16 is held makes the dispatcher release 16 and then press 15, in that order, ending in the state those two calls leave |
| Engine.LateConfirmation | Sources/NagaController/EventTap/EventTapManager.swift:110-123 | A key-down the ledger does not yet show, confirmed only by the last re-query, is still swallowed, held and pressed |
| Engine.HoldConsistency | Sources/NagaController/EventTap/EventTapManager.swift:104-131 | Confirmed key-down, auto-repeat, key-up: exactly one synthetic down and one up with the same code and flags, nothing for the repeat, all swallowed, state restored |
| Engine.CorrelationWindow | Sources/NagaController/EventTap/EventTapManager.swift:110-123 | A key-down 500 ms after the Naga's report is swallowed, marked held, and its press reaches the dispatcher with the event's flags; at 1500 ms with no later confirmation it passes and changes nothing |
| Engine.UnmappedButtonIsSilent | Sources/NagaController/ButtonMapping/ButtonMapper.swift:32-36 | An unbound button's confirmed down and up post nothing and leave the dispatcher unchanged |
| Engine.ListenOnlyKeyUpKeepsHold | Sources/NagaController/EventTap/EventTapManager.swift:124-132 | In listen-only mode the callback returns nothing for a held button's key-up (which does not stop the event) and forwards no release, so its hold stays |
| Engine.ModeSwitchOrphansHold | Sources/NagaController/ButtonMapping/ButtonMapper.swift:40-49 | A listen-only key-up of a held button sends nothing; once remapping is switched back on, the next confirmed key-down of that button posts a new key-down and replaces the button's stored hold, so the first synthetic key-down never gets a key-up |

## Notes on the code

- An unbound button's key-down is still swallowed by the tap, and the
  button is marked held, because the tap never reads the bindings.
  `Engine.UnmappedButtonIsSilent` states what it does.
- If remapping is switched off while a button is held, the key-up still
  removes the button from the held set but sends no release. The synthetic
  key started by the press then stays down. `Engine.ListenOnlyKeyUpKeepsHold`
  exhibits this.
- The capture path has the same gap. If the remapping switch goes off
  while a DPI or tilt button is held, the release edge updates the stored
  state but sends no release, so the synthetic key started by the press
  stays down. This is why `HidListener.RunAlternates` assumes remapping is
  on throughout.
- A second press of a button that already has a hold overwrites the stored
  hold (the table is a map). While remapping stays on, the tap's held set
  keeps this from happening for the keyboard buttons. It does happen when
  remapping is switched off and on again while a button is held: the
  listen-only key-up forgets the button without a release, and the next
  confirmed key-down replaces the hold. The first synthetic key-down is then
  never released. `Engine.ModeSwitchOrphansHold` states this sequence.
- The tap's callback returns nothing (the `Swallow` verdict) for auto-repeats
  and key-ups of held buttons even when the tap is listen-only. A
  listen-only tap cannot stop events, so there the verdict has no effect on
  the event; only a blocking tap suppresses anything.
- The tilt debouncer also fires on a non-zero value other than ±1. It then
  sets the fired flag and stamps the time, but presses nothing.

## Left out

- IOKit, CGEvent and run-loop plumbing: manager creation, device
  enumeration, callback registration, `tapCreate`, run-loop sources, and
  `post`. Posting is the `KeyDown`/`KeyUp` effect. Tap creation is the
  `Permissions` parameter of `Start`.
- Failure of `CGEvent(keyboardEventSource:virtualKey:keyDown:)`: events are
  assumed to be created. In the source a failed creation posts nothing, and
  in `handlePress` it falls back to tapping the strokes.
- Failure of the run-loop source after a tap is created: such a tap counts
  as installed and armed.
- Logging (`NSLog`), and the permission alert's contents and its
  System Settings link. The alert is the `prompt` flag.
- `NSWorkspace.open`, `Process` and `NSPasteboard` are trace effects. Their
  failures are only logged in the source and are not modelled.
  `Thread.sleep` and the 2 ms `usleep` between ledger queries are not
  timed: a macro delay is a `Sleep` effect, and the retry sleeps are
  implicit in the list of answers.
- The serial-queue locking and cross-thread interleaving. Each callback is
  one atomic step with one `now`. A report that arrives during the tap's
  retry wait shows up only as a `true` among the retry answers.
- `CFAbsoluteTimeGetCurrent` as a floating-point clock: time is integer
  milliseconds. The initial `lastTiltGestureTime` of 0 is modelled as 0 ms.
  The real clock is far larger, so the first gesture always passes the
  cooldown; in the model that holds for any `now` ≥ 250.
- `KeyCodeMapper.buttonIndex(for:)`, `KeyStroke.keyCode(for:)`,
  `KeyStroke.fromCharacter`, `ConfigManager.getRemappingEnabled` and the
  flags of a freshly created event are not part of this model. They are
  parameters (`Collaborators`, `Env`, the `remapping` input).
- Swift's Unicode `lowercased()` is modelled as ASCII lower-casing. Both
  the modifier names and "naga" are ASCII.
- `IOHIDElementCookie` and usage values are plain integers. The report
  value is an unbounded integer whose low byte is taken modulo 256.
- The UI controllers and profile management, and the scratch scripts that
  print `CGEventFlags` values. `ThreeKeyBindingTests` exercises
  `KeyStroke` formatting, whose source is not part of this model.
- ButtonMapper.SendKeyStroke: the flags of a freshly created event are one
  value (`Collaborators.freshFlags`) for the whole model. The source creates
  the key-down and the key-up as two separate events, and only the
  modifiers it adds to them are guaranteed to be the same. That the two
  events of a tap carry equal flags (`IsTap`, `Taps` and everything built
  on them) rests on this assumption. The same holds for `PasteText`,
  `TypeText` and `HandlePress`.
- EventTapManager.SetRemappingEnabled: the setter's call to `start` also
  runs `stop`, which disables the old tap. The model just replaces the tap
  state.

=== FILE: actions.dfy ===
/** Bindings, the OS effects the engine emits, and the press/release requests
    the capture and interception layers hand to the dispatcher. */
module Actions {
  import opened Base

  /** A key to synthesize: a key identifier, the modifier names to hold with
      it, and an optional explicit physical key code that takes precedence
      over the identifier. */
  datatype KeyStroke = KeyStroke(key: string, modifiers: seq<string>, keyCode: Option<KeyCode>)

  /** One step of a macro. `kind` is the step's type tag ("key", "text" or
      "delay"); only the payload matching the tag is consulted. */
  datatype MacroStep = MacroStep(kind: string, keyStroke: Option<KeyStroke>, text: Option<string>, delayMs: Option<int>)

  /** What a logical button is bound to. */
  datatype Action =
    | KeySequence(keys: seq<KeyStroke>, description: string)
    | Application(path: string, description: string)
    | SystemCommand(command: string, description: string)
    | TextSnippet(text: string, description: string)
    | Macro(steps: seq<MacroStep>, description: string)
    | ProfileSwitch(profile: string, description: string)

  /** An effect on the operating system, in the order it is performed. */
  datatype Effect =
    | KeyDown(code: KeyCode, flags: set<Flag>)   // post a synthetic key-down
    | KeyUp(code: KeyCode, flags: set<Flag>)     // post a synthetic key-up
    | OpenApp(path: string)                      // ask the workspace to open a path
    | Spawn(program: string, args: seq<string>)  // launch a process, not waited for
    | ClearPasteboard
    | SetPasteboard(text: string)
    | Sleep(ms: int)                             // block the calling thread

  /** A request to the dispatcher, with the modifier flags held at the time. */
  datatype Dispatch = Press(button: int, mods: set<Flag>) | Release(button: int, mods: set<Flag>)

  /** Lookups the engine relies on but does not define: key identifier to
      key code, character to key stroke, and the flags a freshly created
      keyboard event already carries. */
  datatype Collaborators = Collaborators(
    keyCodeFor: string -> Option<KeyCode>,
    strokeForChar: char -> Option<KeyStroke>,
    freshFlags: set<Flag>)

  /** The requests about button `b` in `out` alternate strictly between press
      and release, starting from state `was` (true = pressed) and ending in
      state `now`; requests about other buttons are ignored. */
  predicate EdgeTrace(b: int, was: bool, out: seq<Dispatch>, now: bool)
    decreases |out|
  {
    if out == [] then was == now
    else if out[0].button != b then EdgeTrace(b, was, out[1..], now)
    else if out[0].Press? then !was && EdgeTrace(b, true, out[1..], now)
    else was && EdgeTrace(b, false, out[1..], now)
  }

  /** Alternating traces compose: an alternating trace from `x` to `y`
      followed by one from `y` to `z` alternates from `x` to `z`. */
  lemma {:induction false} EdgeTraceAppend(b: int, x: bool, o1: seq<Dispatch>, y: bool, o2: seq<Dispatch>, z: bool)
    requires EdgeTrace(b, x, o1, y) && EdgeTrace(b, y, o2, z)
    ensures EdgeTrace(b, x, o1 + o2, z)
    decreases |o1|
  {
    if o1 == [] {
      assert o1 + o2 == o2;
    } else {
      assert (o1 + o2)[1..] == o1[1..] + o2;
      if o1[0].button != b {
        EdgeTraceAppend(b, x, o1[1..], y, o2, z);
      } else if o1[0].Press? {
        EdgeTraceAppend(b, true, o1[1..], y, o2, z);
      } else {
        EdgeTraceAppend(b, false, o1[1..], y, o2, z);
      }
    }
  }
}

=== FILE: base.dfy ===
/** Shared vocabulary of the remapping engine: optional values, key codes,
    event-flag bits and the small amount of text handling the engine does
    (lower-casing and substring search). */
module Base {

  datatype Option<+T> = None | Some(value: T)

  /** A Macintosh virtual key code (`CGKeyCode`, an unsigned 16-bit value). */
  newtype KeyCode = x: int | 0 <= x < 0x1_0000

  /** One bit of an event's flag word (`CGEventFlags`). The five named
      modifiers are the ones a binding can ask for; `Other(bit)` stands for
      any further bit a freshly created event may already carry (caps lock,
      non-coalesced, ...), which the engine must preserve. */
  datatype Flag = Command | Shift | Alternate | Control | SecondaryFn | Other(bit: nat)

  /** The modifier bits a binding can name. */
  const NamedModifiers: set<Flag> := {Command, Shift, Alternate, Control, SecondaryFn}

  /** ASCII lower-casing of one character. */
  function LowerChar(c: char): char {
    if 'A' <= c <= 'Z' then (c as int + 32) as char else c
  }

  /** ASCII lower-casing of a string, character by character. */
  function Lower(s: string): (r: string)
    ensures |r| == |s|
    ensures forall i :: 0 <= i < |s| ==> r[i] == LowerChar(s[i])
  {
    seq(|s|, i requires 0 <= i < |s| => LowerChar(s[i]))
  }

  /** `sub` occurs somewhere inside `s`. */
  predicate Contains(s: string, sub: string)
    decreases |s|
  {
    sub <= s || (|s| > 0 && Contains(s[1..], sub))
  }

  /** `Contains` finds exactly the occurrences a position-wise search finds. */
  lemma {:induction false} ContainsAt(s: string, sub: string)
    ensures Contains(s, sub) <==> exists i :: 0 <= i <= |s| - |sub| && OccursAt(s, sub, i)
    decreases |s|
  {
    OccursAtStart(s, sub);
    if |s| > 0 {
      ContainsAt(s[1..], sub);
      forall i | 1 <= i <= |s| - |sub|
        ensures OccursAt(s, sub, i) <==> OccursAt(s[1..], sub, i - 1)
      {
        OccursAtShift(s, sub, i);
      }
      if exists i :: 0 <= i <= |s| - |sub| && OccursAt(s, sub, i) {
        var i :| 0 <= i <= |s| - |sub| && OccursAt(s, sub, i);
        if i > 0 {
          assert OccursAt(s[1..], sub, i - 1);
        }
      }
      if Contains(s[1..], sub) {
        var i :| 0 <= i <= |s[1..]| - |sub| && OccursAt(s[1..], sub, i);
        assert OccursAt(s, sub, i + 1);
      }
    }
  }

  lemma OccursAtStart(s: string, sub: string)
    ensures OccursAt(s, sub, 0) <==> sub <= s
  {
  }

  lemma OccursAtShift(s: string, sub: string, i: int)
    requires |s| > 0 && i >= 1
    ensures OccursAt(s, sub, i) <==> OccursAt(s[1..], sub, i - 1)
  {
    if i + |sub| <= |s| {
      assert s[1..][i - 1..i - 1 + |sub|] == s[i..i + |sub|];
    }
  }

  /** `sub` starts at position `i` of `s`. */
  predicate OccursAt(s: string, sub: string, i: int) {
    0 <= i && i + |sub| <= |s| && s[i..i + |sub|] == sub
  }
}

=== FILE: button_mapper.dfy ===
/** The action dispatcher (`ButtonMapper`): it resolves a logical button to
    its binding and performs it, and for single-key bindings keeps the
    synthetic key held for as long as the physical button is, replaying on
    release exactly the key code and flags it pressed with.

    Every operation is a pure function returning the new dispatcher state
    and the ordered list of OS effects it performs. */
module ButtonMapper {
  import opened Base
  import opened Actions

  /** A synthetic key-down still waiting for its key-up. */
  datatype Hold = Hold(code: KeyCode, flags: set<Flag>)

  /** Current bindings and the holds in flight, both keyed by button. */
  datatype Mapper = Mapper(mapping: map<int, Action>, holds: map<int, Hold>)

  datatype MapperStep = MapperStep(mapper: Mapper, out: seq<Effect>)

  const ZshPath: string := "/bin/zsh"

  /** The built-in bindings before any configuration is loaded: button 1 is
      Cmd+C and button 2 is Cmd+V. */
  const InitialMapper: Mapper := Mapper(
    map[1 := KeySequence([KeyStroke("c", ["cmd"], None)], "Copy"),
        2 := KeySequence([KeyStroke("v", ["cmd"], None)], "Paste")],
    map[])

  /** Replace the bindings; holds already in flight are kept. */
  function UpdateMapping(m: Mapper, mapping: map<int, Action>): (r: Mapper)
    ensures r.mapping == mapping && r.holds == m.holds
  {
    m.(mapping := mapping)
  }

  // ---------------------------------------------------------------------------
  // Modifiers and key codes

  /** The modifier names a binding may use, in lower case. */
  const ModifierNames: set<string> := {"cmd", "command", "shift", "alt", "option", "ctrl", "control", "fn"}

  /** The flag one modifier name stands for, ignoring letter case. */
  function ModifierFlag(name: string): (r: Option<Flag>)
    ensures r.Some? ==> r.value in NamedModifiers
    // Unknown names stand for nothing.
    ensures r.None? <==> Lower(name) !in ModifierNames
    // The name table, one flag at a time.
    ensures r == Some(Command) <==> Lower(name) in {"cmd", "command"}
    ensures r == Some(Shift) <==> Lower(name) == "shift"
    ensures r == Some(Alternate) <==> Lower(name) in {"alt", "option"}
    ensures r == Some(Control) <==> Lower(name) in {"ctrl", "control"}
    ensures r == Some(SecondaryFn) <==> Lower(name) == "fn"
  {
    var m := Lower(name);
    if m == "cmd" || m == "command" then Some(Command)
    else if m == "shift" then Some(Shift)
    else if m == "alt" || m == "option" then Some(Alternate)
    else if m == "ctrl" || m == "control" then Some(Control)
    else if m == "fn" then Some(SecondaryFn)
    else None
  }

  /** The flags a list of modifier names asks for: the flag of every name
      that is known; unknown names contribute nothing. */
  function ModifierFlags(names: seq<string>): (r: set<Flag>)
    ensures r == set n | n in names && ModifierFlag(n).Some? :: ModifierFlag(n).value
    ensures r <= NamedModifiers
    decreases |names|
  {
    if names == [] then {}
    else
      var rest := ModifierFlags(names[1..]);
      assert forall n :: n in names <==> n == names[0] || n in names[1..];
      match ModifierFlag(names[0])
      case Some(f) => {f} + rest
      case None => rest
  }

  /** The flags depend only on which names occur, not on their order or
      repetition. */
  lemma ModifierFlagsSetOnly(a: seq<string>, b: seq<string>)
    requires forall n :: n in a <==> n in b
    ensures ModifierFlags(a) == ModifierFlags(b)
  {
  }

  /** Names that differ only in letter case ask for the same flag. */
  lemma ModifierFlagIgnoresCase(a: string, b: string)
    requires Lower(a) == Lower(b)
    ensures ModifierFlag(a) == ModifierFlag(b)
  {
  }

  /** The key code of a stroke: its explicit code when it has one, the
      identifier lookup otherwise. */
  function EffectiveKeyCode(s: KeyStroke, c: Collaborators): (r: Option<KeyCode>)
    // An explicit code always wins; the lookup is consulted only without one.
    ensures s.keyCode.Some? ==> r == s.keyCode
    ensures s.keyCode.None? ==> r == c.keyCodeFor(s.key)
    ensures r.None? <==> s.keyCode.None? && c.keyCodeFor(s.key).None?
  {
    match s.keyCode
    case Some(code) => Some(code)
    case None => c.keyCodeFor(s.key)
  }

  // ---------------------------------------------------------------------------
  // Sending strokes

  /** A key-down immediately followed by the key-up of the same key with the
      same flags. */
  predicate IsTap(e1: Effect, e2: Effect) {
    e1.KeyDown? && e2.KeyUp? && e1.code == e2.code && e1.flags == e2.flags
  }

  /** The effects are a sequence of complete taps. */
  predicate Taps(es: seq<Effect>)
    decreases |es|
  {
    es == [] || (|es| >= 2 && IsTap(es[0], es[1]) && Taps(es[2..]))
  }

  lemma {:induction false} TapsAppend(a: seq<Effect>, b: seq<Effect>)
    requires Taps(a) && Taps(b)
    ensures Taps(a + b)
    decreases |a|
  {
    if a != [] {
      assert (a + b)[0] == a[0] && (a + b)[1] == a[1];
      assert (a + b)[2..] == a[2..] + b;
      TapsAppend(a[2..], b);
    } else {
      assert a + b == b;
    }
  }

  /** Tap one stroke: nothing when it has no key code, otherwise a key-down
      and a key-up whose flags are the fresh event's flags merged with the
      stroke's modifiers and `extra`. */
  function SendKeyStroke(s: KeyStroke, extra: set<Flag>, c: Collaborators): (r: seq<Effect>)
    ensures EffectiveKeyCode(s, c).None? <==> r == []
    ensures r != [] ==>
      && |r| == 2 && IsTap(r[0], r[1])
      && r[0].code == EffectiveKeyCode(s, c).value
      && r[0].flags == c.freshFlags + ModifierFlags(s.modifiers) + extra
    ensures Taps(r)
  {
    match EffectiveKeyCode(s, c)
    case None => []
    case Some(code) =>
      var flags := c.freshFlags + (ModifierFlags(s.modifiers) + extra);
      assert [KeyDown(code, flags), KeyUp(code, flags)][2..] == [];
      [KeyDown(code, flags), KeyUp(code, flags)]
  }

  /** Tap each stroke in list order. */
  function SendStrokes(keys: seq<KeyStroke>, extra: set<Flag>, c: Collaborators): (r: seq<Effect>)
    ensures Taps(r)
    ensures |r| <= 2 * |keys|
    decreases |keys|
  {
    if keys == [] then []
    else
      var head := SendKeyStroke(keys[0], extra, c);
      var rest := SendStrokes(keys[1..], extra, c);
      TapsAppend(head, rest);
      head + rest
  }

  /** A one-stroke list is that stroke's tap; with `SendStrokesAppend` this
      fixes the effects of every list. */
  lemma SendStrokesOne(k: KeyStroke, extra: set<Flag>, c: Collaborators)
    ensures SendStrokes([k], extra, c) == SendKeyStroke(k, extra, c)
  {
    assert [k][1..] == [];
  }

  /** Sending a concatenation sends the first list, then the second. */
  lemma {:induction false} SendStrokesAppend(a: seq<KeyStroke>, b: seq<KeyStroke>, extra: set<Flag>, c: Collaborators)
    ensures SendStrokes(a + b, extra, c) == SendStrokes(a, extra, c) + SendStrokes(b, extra, c)
    decreases |a|
  {
    if a == [] {
      assert a + b == b;
    } else {
      assert (a + b)[1..] == a[1..] + b;
      SendStrokesAppend(a[1..], b, extra, c);
    }
  }

  // ---------------------------------------------------------------------------
  // Text, paste and macros

  /** Tap each character's stroke in order, skipping characters that have
      none. */
  function TypeText(text: string, c: Collaborators): (r: seq<Effect>)
    ensures Taps(r)
    ensures |r| <= 2 * |text|
    decreases |text|
  {
    if text == [] then []
    else
      var rest := TypeText(text[1..], c);
      match c.strokeForChar(text[0])
      case None => rest
      case Some(ks) =>
        TapsAppend(SendKeyStroke(ks, {}, c), rest);
        SendKeyStroke(ks, {}, c) + rest
  }

  /** Typing a concatenation types the first text, then the second; an
      unresolvable character contributes nothing. */
  lemma {:induction false} TypeTextAppend(a: string, b: string, c: Collaborators)
    ensures TypeText(a + b, c) == TypeText(a, c) + TypeText(b, c)
    decreases |a|
  {
    if a == [] {
      assert a + b == b;
    } else {
      assert (a + b)[1..] == a[1..] + b;
      TypeTextAppend(a[1..], b, c);
    }
  }

  /** One character types its stroke's tap, or nothing when it has no
      stroke; with `TypeTextAppend` this fixes the effects of every text. */
  lemma TypeTextChar(ch: char, c: Collaborators)
    ensures c.strokeForChar(ch).None? ==> TypeText([ch], c) == []
    ensures c.strokeForChar(ch).Some? ==> TypeText([ch], c) == SendKeyStroke(c.strokeForChar(ch).value, {}, c)
  {
    assert [ch][1..] == [];
  }

  /** The paste shortcut. */
  const PasteStroke: KeyStroke := KeyStroke("v", ["cmd"], None)

  /** Put the text on the pasteboard, then tap Cmd+V. */
  function PasteText(text: string, c: Collaborators): (r: seq<Effect>)
    ensures |r| >= 2 && r[0] == ClearPasteboard && r[1] == SetPasteboard(text)
    ensures Taps(r[2..])
    ensures forall i :: 2 <= i < |r| ==> (r[i].KeyDown? || r[i].KeyUp?) && Command in r[i].flags
    // Exactly one tap of "v" with Command added, unless "v" has no key code.
    ensures |r| == 2 <==> c.keyCodeFor("v").None?
    ensures |r| > 2 ==>
      && |r| == 4 && IsTap(r[2], r[3])
      && r[2] == KeyDown(c.keyCodeFor("v").value, c.freshFlags + {Command})
  {
    var tap := SendKeyStroke(PasteStroke, {}, c);
    assert ModifierFlag("cmd") == Some(Command);
    assert Command in ModifierFlags(PasteStroke.modifiers);
    assert ([ClearPasteboard, SetPasteboard(text)] + tap)[2..] == tap;
    [ClearPasteboard, SetPasteboard(text)] + tap
  }

  /** The effects of one macro step; steps of an unknown kind, or missing
      the payload their kind needs, do nothing. */
  function MacroStepEffects(step: MacroStep, c: Collaborators): (r: seq<Effect>)
    ensures step.kind == "key" ==>
      r == (if step.keyStroke.Some? then SendKeyStroke(step.keyStroke.value, {}, c) else [])
    ensures step.kind == "text" ==>
      r == (if step.text.Some? then PasteText(step.text.value, c) else [])
    ensures step.kind == "delay" ==>
      r == (if step.delayMs.Some? then [Sleep(step.delayMs.value)] else [])
    ensures step.kind !in {"key", "text", "delay"} ==> r == []
  {
    if step.kind == "key" then
      match step.keyStroke
      case Some(ks) => SendKeyStroke(ks, {}, c)
      case None => []
    else if step.kind == "text" then
      match step.text
      case Some(t) => PasteText(t, c)
      case None => []
    else if step.kind == "delay" then
      match step.delayMs
      case Some(ms) => [Sleep(ms)]
      case None => []
    else []
  }

  /** Run the steps strictly in order. */
  function RunMacro(steps: seq<MacroStep>, c: Collaborators): (r: seq<Effect>)
    // A macro only types, pastes and waits: it never launches anything.
    ensures forall i :: 0 <= i < |r| ==> !r[i].OpenApp? && !r[i].Spawn?
    decreases |steps|
  {
    if steps == [] then [] else MacroStepEffects(steps[0], c) + RunMacro(steps[1..], c)
  }

  /** A one-step macro has exactly that step's effects; with
      `RunMacroAppend` this fixes the effects of every macro. */
  lemma RunMacroOne(step: MacroStep, c: Collaborators)
    ensures RunMacro([step], c) == MacroStepEffects(step, c)
  {
    assert [step][1..] == [];
  }

  /** Running a concatenation of macros runs the first, then the second, so
      every step's effects come after all of its predecessors'. */
  lemma {:induction false} RunMacroAppend(a: seq<MacroStep>, b: seq<MacroStep>, c: Collaborators)
    ensures RunMacro(a + b, c) == RunMacro(a, c) + RunMacro(b, c)
    decreases |a|
  {
    if a == [] {
      assert a + b == b;
    } else {
      assert (a + b)[1..] == a[1..] + b;
      RunMacroAppend(a[1..], b, c);
    }
  }

  /** The macro {key A, delay 50 ms, text "x"} taps A, then sleeps 50 ms,
      then fills the pasteboard and taps Cmd+V, in exactly that order. */
  lemma MacroRunsInOrder(a: KeyStroke, c: Collaborators)
    requires EffectiveKeyCode(a, c).Some? && c.keyCodeFor("v").Some?
    ensures var r := RunMacro([MacroStep("key", Some(a), None, None),
                               MacroStep("delay", None, None, Some(50)),
                               MacroStep("text", None, Some("x"), None)], c);
      && |r| == 7
      && IsTap(r[0], r[1]) && r[0].code == EffectiveKeyCode(a, c).value
      && r[2] == Sleep(50)
      && r[3] == ClearPasteboard && r[4] == SetPasteboard("x")
      && IsTap(r[5], r[6]) && r[5].code == c.keyCodeFor("v").value && Command in r[5].flags
  {
    var steps := [MacroStep("key", Some(a), None, None),
                  MacroStep("delay", None, None, Some(50)),
                  MacroStep("text", None, Some("x"), None)];
    assert steps[1..][1..][1..] == [];
    var k := SendKeyStroke(a, {}, c);
    var p := PasteText("x", c);
    assert |k| == 2 && |p| == 4;
    calc {
      RunMacro(steps, c);
      MacroStepEffects(steps[0], c) + RunMacro(steps[1..], c);
      k + (MacroStepEffects(steps[1], c) + RunMacro(steps[1..][1..], c));
      k + ([Sleep(50)] + (MacroStepEffects(steps[2], c) + RunMacro(steps[1..][1..][1..], c)));
      k + ([Sleep(50)] + (p + []));
    }
  }

  // ---------------------------------------------------------------------------
  // Performing bindings

  /** Perform a binding without hold semantics. */
  function Perform(a: Action, c: Collaborators): (r: seq<Effect>)
    // Key sequences and text are taps only: each stroke, or each
    // character's stroke, tapped in order with no extra modifiers.
    ensures a.KeySequence? || a.TextSnippet? ==> Taps(r)
    ensures a.KeySequence? ==> r == SendStrokes(a.keys, {}, c)
    ensures a.TextSnippet? ==> r == TypeText(a.text, c)
    // A macro runs its steps.
    ensures a.Macro? ==> r == RunMacro(a.steps, c)
    // Launching and shell commands are one fire-and-forget effect each; the
    // command is the single argument after the login-shell flag.
    ensures a.Application? ==> r == [OpenApp(a.path)]
    ensures a.SystemCommand? ==> r == [Spawn(ZshPath, ["-lc", a.command])]
    // Switching profiles is not done by the engine.
    ensures a.ProfileSwitch? ==> r == []
  {
    match a
    case KeySequence(keys, _) => SendStrokes(keys, {}, c)
    case Application(path, _) => [OpenApp(path)]
    case SystemCommand(command, _) => [Spawn(ZshPath, ["-lc", command])]
    case TextSnippet(text, _) => TypeText(text, c)
    case Macro(steps, _) => RunMacro(steps, c)
    case ProfileSwitch(_, _) => []
  }

  /** Perform the binding of a button; an unbound button does nothing. */
  function Handle(m: Mapper, b: int, c: Collaborators): (r: seq<Effect>)
    ensures b !in m.mapping ==> r == []
    ensures b in m.mapping ==> r == Perform(m.mapping[b], c)
  {
    if b in m.mapping then Perform(m.mapping[b], c) else []
  }

  /** Pasting taps the same shortcut that the built-in Paste binding
      (button 2) sends when performed. */
  lemma PasteUsesPasteBinding(text: string, c: Collaborators)
    ensures PasteText(text, c)[2..] == Handle(InitialMapper, 2, c)
  {
    assert ([ClearPasteboard, SetPasteboard(text)] + SendKeyStroke(PasteStroke, {}, c))[2..]
      == SendKeyStroke(PasteStroke, {}, c);
    assert SendStrokes([PasteStroke], {}, c) == SendKeyStroke(PasteStroke, {}, c) + SendStrokes([], {}, c);
  }

  // ---------------------------------------------------------------------------
  // Press and release

  /** Button `b` is bound to a single stroke that resolves to a key code, so
      pressing it starts a hold. */
  predicate StartsHold(m: Mapper, b: int, c: Collaborators) {
    && b in m.mapping
    && m.mapping[b].KeySequence?
    && |m.mapping[b].keys| == 1
    && EffectiveKeyCode(m.mapping[b].keys[0], c).Some?
  }

  /** The hold a press of `b` starts, with `current` modifiers held. */
  function HoldFor(m: Mapper, b: int, current: set<Flag>, c: Collaborators): (h: Hold)
    requires StartsHold(m, b, c)
    ensures h.code == EffectiveKeyCode(m.mapping[b].keys[0], c).value
    ensures ModifierFlags(m.mapping[b].keys[0].modifiers) + current <= h.flags
    ensures c.freshFlags <= h.flags
  {
    var stroke := m.mapping[b].keys[0];
    Hold(EffectiveKeyCode(stroke, c).value, c.freshFlags + (ModifierFlags(stroke.modifiers) + current))
  }

  /** Physical press of `b` while `current` modifiers are held. */
  function HandlePress(m: Mapper, b: int, current: set<Flag>, c: Collaborators): (r: MapperStep)
    ensures r.mapper.mapping == m.mapping
    // An unbound button does nothing.
    ensures b !in m.mapping ==> r == MapperStep(m, [])
    // A single resolvable stroke posts exactly one key-down and remembers it.
    ensures StartsHold(m, b, c) ==>
      var h := HoldFor(m, b, current, c);
      r.out == [KeyDown(h.code, h.flags)] && r.mapper.holds == m.holds[b := h]
    // Anything else creates no hold.
    ensures !StartsHold(m, b, c) ==> r.mapper.holds == m.holds
    // Key sequences without a hold tap every stroke with `current` added.
    ensures b in m.mapping && m.mapping[b].KeySequence? && !StartsHold(m, b, c) ==>
      r.out == SendStrokes(m.mapping[b].keys, current, c)
    // Other bindings are performed as by a plain `Handle`.
    ensures b in m.mapping && !m.mapping[b].KeySequence? ==> r.out == Perform(m.mapping[b], c)
  {
    if b !in m.mapping then MapperStep(m, [])
    else
      match m.mapping[b]
      case KeySequence(keys, _) =>
        if |keys| == 1 && EffectiveKeyCode(keys[0], c).Some? then
          var stroke := keys[0];
          var code := EffectiveKeyCode(stroke, c).value;
          var flags := c.freshFlags + (ModifierFlags(stroke.modifiers) + current);
          MapperStep(m.(holds := m.holds[b := Hold(code, flags)]), [KeyDown(code, flags)])
        else
          MapperStep(m, SendStrokes(keys, current, c))
      case _ => MapperStep(m, Perform(m.mapping[b], c))
  }

  /** Physical release of `b`: end its hold, if any, with the code and flags
      stored at press time; otherwise do nothing. */
  function HandleRelease(m: Mapper, b: int): (r: MapperStep)
    ensures r.mapper.mapping == m.mapping
    ensures r.mapper.holds.Keys == m.holds.Keys - {b}
    ensures forall x :: x in r.mapper.holds ==> r.mapper.holds[x] == m.holds[x]
    ensures b !in m.holds ==> r == MapperStep(m, [])
    ensures b in m.holds ==> r.out == [KeyUp(m.holds[b].code, m.holds[b].flags)]
  {
    if b in m.holds then
      var h := m.holds[b];
      MapperStep(m.(holds := m.holds - {b}), [KeyUp(h.code, h.flags)])
    else MapperStep(m, [])
  }

  /** A press of a button that starts no hold does what a plain `Handle`
      does, as long as no modifier is physically held (or the binding is
      not a key sequence, which ignores held modifiers); the dispatcher
      state is unchanged. */
  lemma PressWithoutHoldIsHandle(m: Mapper, b: int, current: set<Flag>, c: Collaborators)
    requires !StartsHold(m, b, c)
    requires current == {} || b !in m.mapping || !m.mapping[b].KeySequence?
    ensures HandlePress(m, b, current, c) == MapperStep(m, Handle(m, b, c))
  {
  }

  /** Press then release of a hold binding: one key-down and one key-up of
      the same key with identical flags, and the hold table ends where it
      started. */
  lemma PressReleaseRoundTrip(m: Mapper, b: int, current: set<Flag>, c: Collaborators)
    requires StartsHold(m, b, c) && b !in m.holds
    ensures var p := HandlePress(m, b, current, c);
      var q := HandleRelease(p.mapper, b);
      && |p.out| == 1 && |q.out| == 1 && IsTap(p.out[0], q.out[0])
      && q.mapper == m
  {
    var p := HandlePress(m, b, current, c);
    var q := HandleRelease(p.mapper, b);
    assert q.mapper.holds == m.holds;
  }

  /** Rebinding a button while it is held does not change the key-up its
      release sends. */
  lemma ReleaseIgnoresRebinding(m: Mapper, b: int, mapping: map<int, Action>)
    ensures HandleRelease(UpdateMapping(m, mapping), b).out == HandleRelease(m, b).out
  {
  }

  /** Pressing Cmd+C while Shift is physically held posts a key-down that
      carries both Command and Shift. */
  lemma ModifierUnion(m: Mapper, b: int, c: Collaborators)
    requires b in m.mapping && m.mapping[b] == KeySequence([KeyStroke("c", ["cmd"], None)], "Copy")
    requires c.keyCodeFor("c").Some?
    ensures var r := HandlePress(m, b, {Shift}, c);
      |r.out| == 1 && r.out[0].KeyDown? && {Command, Shift} <= r.out[0].flags
  {
    assert ModifierFlag("cmd") == Some(Command);
    assert Command in ModifierFlags(["cmd"]);
  }
}

=== FILE: engine.dfy ===
/** The three components wired together as one sequential state machine.
    Hardware reports drive the capture channel, whose requests go straight
    to the dispatcher; key events drive the tap, which reads the capture
    channel's ledger and forwards its requests to the dispatcher too. Each
    input is one atomic step. */
module Engine {
  import opened Base
  import opened Actions
  import H = HidListener
  import T = EventTapManager
  import M = ButtonMapper

  datatype System = System(hid: H.HidState, tap: T.Tap, mapper: M.Mapper)

  /** Lookups the engine uses but does not define. */
  datatype Env = Env(collab: Collaborators, buttonForKeyCode: KeyCode -> Option<int>)

  /** An input to the engine. `remapping` is the configuration's "remapping
      enabled" switch at the time of a report; `retries` are the ledger's
      answers to the re-queries made after the first one, which may differ
      from the ledger as it stands because the hardware report can land
      during the wait. */
  datatype Input =
    | Report(report: H.HidReport, now: int, remapping: bool)
    | KeyEvent(event: T.TapEvent, now: int, retries: seq<bool>)

  /** The new state, the tap's verdict on a key event (none for a report),
      and the OS effects performed. */
  datatype EngineStep = EngineStep(system: System, verdict: Option<T.Verdict>, out: seq<Effect>)

  /** Hand one request to the dispatcher. */
  function Deliver(m: M.Mapper, d: Dispatch, c: Collaborators): M.MapperStep {
    if d.Press? then M.HandlePress(m, d.button, d.mods, c) else M.HandleRelease(m, d.button)
  }

  /** Hand requests to the dispatcher in order. */
  function ApplyDispatches(m: M.Mapper, ds: seq<Dispatch>, c: Collaborators): (r: M.MapperStep)
    ensures r.mapper.mapping == m.mapping
    ensures ds == [] ==> r == M.MapperStep(m, [])
    decreases |ds|
  {
    if ds == [] then M.MapperStep(m, [])
    else
      var s := Deliver(m, ds[0], c);
      var rest := ApplyDispatches(s.mapper, ds[1..], c);
      M.MapperStep(rest.mapper, s.out + rest.out)
  }

  lemma ApplyOne(m: M.Mapper, d: Dispatch, c: Collaborators)
    ensures ApplyDispatches(m, [d], c) == Deliver(m, d, c)
  {
    assert [d][1..] == [];
    var s := Deliver(m, d, c);
    assert s.out + [] == s.out;
  }

  /** The ledger answers a key event sees: the first query reads the ledger
      as it stands, the re-queries are the given ones. */
  function LedgerAnswers(hid: H.HidState, ev: T.TapEvent, now: int, retries: seq<bool>, env: Env): (r: seq<bool>)
    ensures env.buttonForKeyCode(ev.keyCode).Some? ==>
      |r| >= 1 && (r[0] <==> H.WasRecentPress(hid.ledger, env.buttonForKeyCode(ev.keyCode).value, now))
    // The re-queries follow the first query, in order.
    ensures env.buttonForKeyCode(ev.keyCode).Some? ==> r[1..] == retries
  {
    match env.buttonForKeyCode(ev.keyCode)
    case Some(b) => [H.WasRecentPress(hid.ledger, b, now)] + retries
    case None => retries
  }

  function Step(s: System, i: Input, env: Env): (r: EngineStep)
    // A report never touches the tap; a key event never touches the capture state.
    ensures i.Report? ==> r.system.tap == s.tap && r.verdict.None?
    ensures i.KeyEvent? ==> r.system.hid == s.hid && r.verdict.Some?
    // Bindings are only read.
    ensures r.system.mapper.mapping == s.mapper.mapping
    // With remapping switched off, a report performs nothing.
    ensures i.Report? && !i.remapping ==> r.out == [] && r.system.mapper == s.mapper
    // Events that pass through perform nothing and leave the held buttons
    // and the synthetic holds alone.
    ensures r.verdict == Some(T.PassThrough) ==>
      r.out == [] && r.system.mapper == s.mapper && r.system.tap.active == s.tap.active
  {
    match i
    case Report(rep, now, remapping) =>
      var h := H.HandleValue(s.hid, rep, now, remapping);
      var m := ApplyDispatches(s.mapper, h.out, env.collab);
      EngineStep(System(h.state, s.tap, m.mapper), None, m.out)
    case KeyEvent(ev, now, retries) =>
      var answers := LedgerAnswers(s.hid, ev, now, retries, env);
      var t := T.Callback(s.tap, ev, env.buttonForKeyCode, answers);
      var m := ApplyDispatches(s.mapper, t.out, env.collab);
      EngineStep(System(s.hid, t.tap, m.mapper), Some(t.verdict), m.out)
  }

  function DownEvent(code: KeyCode, flags: set<Flag>): T.TapEvent {
    T.TapEvent(T.KeyDownEvent, code, flags)
  }

  function UpEvent(code: KeyCode, flags: set<Flag>): T.TapEvent {
    T.TapEvent(T.KeyUpEvent, code, flags)
  }

  /** Hold consistency. For a button bound to one resolvable stroke, a
      confirmed key-down posts exactly one synthetic key-down, an
      auto-repeat of it is swallowed and posts nothing, and the key-up posts
      exactly one synthetic key-up with the same code and flags; all three
      are swallowed and the tap and hold table end where they started. */
  lemma HoldConsistency(s: System, env: Env, code: KeyCode, b: int,
                        f1: set<Flag>, f2: set<Flag>, f3: set<Flag>,
                        t1: int, t2: int, t3: int, r1: seq<bool>, r2: seq<bool>, r3: seq<bool>)
    requires !s.tap.listeningOnly && b !in s.tap.active && b !in s.mapper.holds
    requires env.buttonForKeyCode(code) == Some(b)
    requires M.StartsHold(s.mapper, b, env.collab)
    requires H.WasRecentPress(s.hid.ledger, b, t1)
    ensures var e1 := Step(s, KeyEvent(DownEvent(code, f1), t1, r1), env);
      var e2 := Step(e1.system, KeyEvent(DownEvent(code, f2), t2, r2), env);
      var e3 := Step(e2.system, KeyEvent(UpEvent(code, f3), t3, r3), env);
      var h := M.HoldFor(s.mapper, b, f1, env.collab);
      && e1.verdict == Some(T.Swallow) && e2.verdict == Some(T.Swallow) && e3.verdict == Some(T.Swallow)
      && e1.out == [KeyDown(h.code, h.flags)]
      && e2.out == []
      && e3.out == [KeyUp(h.code, h.flags)]
      && e3.system.tap == s.tap && e3.system.mapper == s.mapper
  {
    var c := env.collab;
    var a1 := LedgerAnswers(s.hid, DownEvent(code, f1), t1, r1, env);
    assert T.Answer(a1, 0);
    var tr1 := T.Callback(s.tap, DownEvent(code, f1), env.buttonForKeyCode, a1);
    assert tr1.out == [Press(b, f1)];
    ApplyOne(s.mapper, Press(b, f1), c);
    var p := M.HandlePress(s.mapper, b, f1, c);
    var e1 := Step(s, KeyEvent(DownEvent(code, f1), t1, r1), env);
    assert e1.system.mapper == p.mapper;
    var e2 := Step(e1.system, KeyEvent(DownEvent(code, f2), t2, r2), env);
    assert e2.system == e1.system;
    var a3 := LedgerAnswers(e2.system.hid, UpEvent(code, f3), t3, r3, env);
    var tr3 := T.Callback(e2.system.tap, UpEvent(code, f3), env.buttonForKeyCode, a3);
    assert tr3.out == [Release(b, f3)];
    assert tr3.tap.active == s.tap.active;
    ApplyOne(p.mapper, Release(b, f3), c);
    M.PressReleaseRoundTrip(s.mapper, b, f1, c);
  }

  /** A keyboard-page report of the Naga's number key `u` at time `t`. */
  function NumberKeyReport(d: H.Device, u: int, t: int): Input {
    Report(H.HidReport(d, H.KeyboardPage, u, 0, 1), t, true)
  }

  /** Correlation window. After the Naga reports button `b` at time `t`, the
      OS key-down of `b` arriving 500 ms later is matched: swallowed and
      forwarded as a press. One arriving 1500 ms later, with no confirmation
      during the wait either, passes through and changes nothing. */
  lemma CorrelationWindow(s: System, env: Env, d: H.Device, u: int, code: KeyCode, b: int,
                          t: int, f: set<Flag>, retries: seq<bool>)
    requires H.IsNagaDevice(d) && H.ButtonForUsage(u) == Some(b)
    requires !s.tap.listeningOnly && b !in s.tap.active
    requires env.buttonForKeyCode(code) == Some(b)
    requires forall i :: 0 <= i < |retries| ==> !retries[i]
    ensures var s1 := Step(s, NumberKeyReport(d, u, t), env).system;
      var near := Step(s1, KeyEvent(DownEvent(code, f), t + 500, []), env);
      var far := Step(s1, KeyEvent(DownEvent(code, f), t + 1500, retries), env);
      && near.verdict == Some(T.Swallow) && b in near.system.tap.active
      && near.out == M.HandlePress(s1.mapper, b, f, env.collab).out
      && far.verdict == Some(T.PassThrough) && far.out == [] && far.system == s1
  {
    var h := H.HandleValue(s.hid, H.HidReport(d, H.KeyboardPage, u, 0, 1), t, true);
    H.KeyboardReportLedger(s.hid, H.HidReport(d, H.KeyboardPage, u, 0, 1), t, true);
    var s1 := Step(s, NumberKeyReport(d, u, t), env).system;
    assert s1.hid.ledger[b] == t;
    var aNear := LedgerAnswers(s1.hid, DownEvent(code, f), t + 500, [], env);
    assert T.Answer(aNear, 0);
    ApplyOne(s1.mapper, Press(b, f), env.collab);
    var aFar := LedgerAnswers(s1.hid, DownEvent(code, f), t + 1500, retries, env);
    assert !aFar[0];
    assert forall i :: 0 <= i < T.MaxQueries ==> !T.Answer(aFar, i);
  }

  /** An unbound button: its confirmed key-down and key-up post nothing and
      start no hold (the tap still swallows both, as it does not consult the
      bindings). */
  lemma UnmappedButtonIsSilent(s: System, env: Env, code: KeyCode, b: int,
                               f1: set<Flag>, f2: set<Flag>, t1: int, t2: int, r1: seq<bool>, r2: seq<bool>)
    requires !s.tap.listeningOnly && b !in s.tap.active && b !in s.mapper.holds
    requires env.buttonForKeyCode(code) == Some(b) && b !in s.mapper.mapping
    requires H.WasRecentPress(s.hid.ledger, b, t1)
    ensures var e1 := Step(s, KeyEvent(DownEvent(code, f1), t1, r1), env);
      var e2 := Step(e1.system, KeyEvent(UpEvent(code, f2), t2, r2), env);
      && e1.out == [] && e2.out == []
      && e1.verdict == Some(T.Swallow) && e2.verdict == Some(T.Swallow)
      && e2.system.mapper == s.mapper && e2.system.tap == s.tap
  {
    var a1 := LedgerAnswers(s.hid, DownEvent(code, f1), t1, r1, env);
    assert T.Answer(a1, 0);
    ApplyOne(s.mapper, Press(b, f1), env.collab);
    var e1 := Step(s, KeyEvent(DownEvent(code, f1), t1, r1), env);
    assert e1.system.mapper == s.mapper;
    ApplyOne(s.mapper, Release(b, f2), env.collab);
    assert e1.system.tap.active - {b} == s.tap.active;
  }

  /** Turning remapping off while a button is held: its key-up is still
      swallowed and forgotten by the tap, but no release reaches the
      dispatcher, so the synthetic key started by the press stays held. */
  lemma ListenOnlyKeyUpKeepsHold(s: System, env: Env, code: KeyCode, b: int, f: set<Flag>, t: int, r: seq<bool>)
    requires s.tap.listeningOnly && b in s.tap.active && b in s.mapper.holds
    requires env.buttonForKeyCode(code) == Some(b)
    ensures var e := Step(s, KeyEvent(UpEvent(code, f), t, r), env);
      && e.verdict == Some(T.Swallow) && e.out == []
      && b !in e.system.tap.active && b in e.system.mapper.holds
  {
  }

  /** Switching remapping off and on again while a button is held orphans
      its synthetic key. The listen-only key-up forgets the button without a
      release; after the switch back, the next confirmed key-down starts a
      new hold for the button, which replaces the old one in the table, so
      the old key-down is never matched by a key-up. */
  lemma ModeSwitchOrphansHold(s: System, env: Env, code: KeyCode, b: int, p: T.Permissions,
                              f1: set<Flag>, f2: set<Flag>, t1: int, t2: int, r1: seq<bool>, r2: seq<bool>)
    requires s.tap.listeningOnly && b in s.tap.active && b in s.mapper.holds
    requires env.buttonForKeyCode(code) == Some(b) && p.blocking
    requires M.StartsHold(s.mapper, b, env.collab)
    requires H.WasRecentPress(s.hid.ledger, b, t2)
    ensures var e1 := Step(s, KeyEvent(UpEvent(code, f1), t1, r1), env);
      var s2 := e1.system.(tap := T.SetRemappingEnabled(e1.system.tap, true, p).tap);
      var e2 := Step(s2, KeyEvent(DownEvent(code, f2), t2, r2), env);
      var h := M.HoldFor(s.mapper, b, f2, env.collab);
      && e1.out == [] && e2.verdict == Some(T.Swallow)
      && e2.out == [KeyDown(h.code, h.flags)]
      && e2.system.mapper.holds == s.mapper.holds[b := h]
  {
    var e1 := Step(s, KeyEvent(UpEvent(code, f1), t1, r1), env);
    var s2 := e1.system.(tap := T.SetRemappingEnabled(e1.system.tap, true, p).tap);
    assert !s2.tap.listeningOnly && b !in s2.tap.active;
    var a2 := LedgerAnswers(s2.hid, DownEvent(code, f2), t2, r2, env);
    assert T.Answer(a2, 0);
    ApplyOne(s2.mapper, Press(b, f2), env.collab);
  }

  /** A DPI-up press edge from a Naga, with remapping on, is handed to the
      dispatcher as a press of button 13 with no held modifiers. */
  lemma DpiPressReachesDispatcher(s: System, env: Env, d: H.Device, page: int, raw: int, now: int)
    requires H.IsNagaDevice(d) && page != H.KeyboardPage
    requires H.DpiUpPressed(raw) && !H.Pressed(s.hid, H.DpiUpButton)
    ensures Step(s, Report(H.HidReport(d, page, 0, H.DpiUpCookie, raw), now, true), env).out
      == M.HandlePress(s.mapper, H.DpiUpButton, {}, env.collab).out
  {
    ApplyOne(s.mapper, Press(H.DpiUpButton, {}), env.collab);
  }

  /** A left tilt starting a gesture while button 16 is still held: the
      dispatcher first releases 16, then presses 15, in that order. */
  lemma TiltLeftReachesDispatcher(s: System, env: Env, d: H.Device, page: int, now: int)
    requires H.IsNagaDevice(d) && page != H.KeyboardPage
    requires H.StartsGesture(s.hid.tilt, -1, now)
    requires H.Pressed(s.hid, H.TiltRightButton) && !H.Pressed(s.hid, H.TiltLeftButton)
    ensures var rel := M.HandleRelease(s.mapper, H.TiltRightButton);
      var press := M.HandlePress(rel.mapper, H.TiltLeftButton, {}, env.collab);
      var r := Step(s, Report(H.HidReport(d, page, 0, H.ScrollTiltCookie, -1), now, true), env);
      r.out == rel.out + press.out && r.system.mapper == press.mapper
  {
    var ds := [Release(H.TiltRightButton, {}), Press(H.TiltLeftButton, {})];
    var h := H.HandleValue(s.hid, H.HidReport(d, page, 0, H.ScrollTiltCookie, -1), now, true);
    assert h.out == ds;
    var rel := M.HandleRelease(s.mapper, H.TiltRightButton);
    assert ds[1..] == [Press(H.TiltLeftButton, {})];
    ApplyOne(rel.mapper, Press(H.TiltLeftButton, {}), env.collab);
    var press := M.HandlePress(rel.mapper, H.TiltLeftButton, {}, env.collab);
    assert ApplyDispatches(s.mapper, ds, env.collab) == M.MapperStep(press.mapper, rel.out + press.out);
  }

  /** A key-down whose button the ledger does not yet show, but which the
      fifth re-query confirms (the hardware report landed during the wait),
      is still swallowed, held, and pressed. */
  lemma LateConfirmation(s: System, env: Env, code: KeyCode, b: int, f: set<Flag>, t: int)
    requires !s.tap.listeningOnly && b !in s.tap.active
    requires env.buttonForKeyCode(code) == Some(b)
    requires !H.WasRecentPress(s.hid.ledger, b, t)
    ensures var e := Step(s, KeyEvent(DownEvent(code, f), t, [false, false, false, false, true]), env);
      && e.verdict == Some(T.Swallow) && b in e.system.tap.active
      && e.out == M.HandlePress(s.mapper, b, f, env.collab).out
  {
    var a := LedgerAnswers(s.hid, DownEvent(code, f), t, [false, false, false, false, true], env);
    assert T.Answer(a, 5);
    ApplyOne(s.mapper, Press(b, f), env.collab);
  }
}

=== FILE: event_tap.dfy ===
/** The system interception layer (`EventTapManager`): a session-wide
    keyboard tap that decides, for every key event, whether it came from the
    Naga (swallow it and forward a press/release) or from a real keyboard
    (let it through), and that remembers which buttons have a swallowed
    key-down outstanding so that their auto-repeats and key-ups are
    swallowed too.

    The ledger queries made while waiting for the hardware report are given
    as a list of answers, in query order; an answer past the end of the list
    reads as "not confirmed". */
module EventTapManager {
  import opened Base
  import opened Actions

  /** Ledger queries before a key-down is given up on: one, then five
      retries (each after a 2 ms sleep). */
  const MaxQueries: nat := 6

  datatype EventType = KeyDownEvent | KeyUpEvent | TapDisabledByTimeout | TapDisabledByUserInput | OtherEvent

  /** An event delivered to the tap: its type, key code and flags. */
  datatype TapEvent = TapEvent(kind: EventType, keyCode: KeyCode, flags: set<Flag>)

  /** The callback's return value: the event itself, or nothing. Only a
      blocking tap can stop an event this way; a listen-only tap's events
      continue whatever the callback returns. */
  datatype Verdict = PassThrough | Swallow

  /** The buttons with a swallowed key-down outstanding, whether the tap is
      listen-only, whether a tap exists, and whether it is enabled. */
  datatype Tap = Tap(active: set<int>, listeningOnly: bool, installed: bool, armed: bool)

  const InitialTap: Tap := Tap({}, true, false, false)

  /** Remapping is on exactly when the tap can suppress events. */
  predicate IsRemappingEnabled(t: Tap) {
    !t.listeningOnly
  }

  // ---------------------------------------------------------------------------
  // Confirmation against the ledger

  /** The answer to query `i`. */
  predicate Answer(answers: seq<bool>, i: nat) {
    i < |answers| && answers[i]
  }

  /** Some query within the bound confirms the press. */
  predicate Confirmed(answers: seq<bool>) {
    exists i :: 0 <= i < MaxQueries && Answer(answers, i)
  }

  /** The retry loop: query once, then up to five more times, stopping at the
      first confirmation. Returns whether the press was confirmed and how
      many queries were made. */
  method ConfirmRecentPress(answers: seq<bool>) returns (recent: bool, queries: nat)
    ensures recent <==> Confirmed(answers)
    ensures 1 <= queries <= MaxQueries
    // It stops at the first confirming answer, or after the last query.
    ensures forall i :: 0 <= i < queries - 1 ==> !Answer(answers, i)
    ensures recent ==> Answer(answers, queries - 1)
    ensures !recent ==> queries == MaxQueries
  {
    queries := 1;
    recent := Answer(answers, 0);
    var retry := 0;
    while retry < 5 && !recent
      invariant 0 <= retry <= 5
      invariant queries == retry + 1
      invariant forall i :: 0 <= i < queries - 1 ==> !Answer(answers, i)
      invariant recent <==> Answer(answers, queries - 1)
    {
      queries := queries + 1;
      recent := Answer(answers, queries - 1);
      retry := retry + 1;
    }
  }

  // ---------------------------------------------------------------------------
  // The callback

  datatype TapResult = TapResult(tap: Tap, verdict: Verdict, out: seq<Dispatch>)

  /** Handle one event. `buttonFor` maps a key code to the Naga button it
      reports, if any; `answers` are the ledger's answers for that button. */
  function Callback(t: Tap, ev: TapEvent, buttonFor: KeyCode -> Option<int>, answers: seq<bool>): (r: TapResult)
    // A disabled tap is re-enabled (if there is one) and the event passes.
    ensures ev.kind == TapDisabledByTimeout || ev.kind == TapDisabledByUserInput ==>
      r == TapResult(t.(armed := t.installed), PassThrough, [])
    // Key events change only the set of outstanding buttons.
    ensures ev.kind == KeyDownEvent || ev.kind == KeyUpEvent ==> r.tap == t.(active := r.tap.active)
    // Other events, and keys that are no Naga button, pass unchanged.
    ensures ev.kind == OtherEvent || buttonFor(ev.keyCode).None? ==>
      r.verdict == PassThrough && r.out == [] && r.tap.active == t.active
    // Whatever passes leaves the state alone and forwards nothing.
    ensures r.verdict == PassThrough ==> r.tap.active == t.active && r.out == []
    // Key-down of a button already held (auto-repeat): swallowed, nothing else.
    ensures ev.kind == KeyDownEvent && buttonFor(ev.keyCode).Some? && buttonFor(ev.keyCode).value in t.active ==>
      r == TapResult(t, Swallow, [])
    // Key-down of a new button: swallowed exactly when the tap can block and
    // the ledger confirms it; then the button is held and pressed.
    ensures ev.kind == KeyDownEvent && buttonFor(ev.keyCode).Some? && buttonFor(ev.keyCode).value !in t.active ==>
      var b := buttonFor(ev.keyCode).value;
      && (r.verdict == Swallow <==> !t.listeningOnly && Confirmed(answers))
      && (r.verdict == Swallow ==> r.tap.active == t.active + {b} && r.out == [Press(b, ev.flags)])
    // Key-up of a held button: swallowed and no longer held; released only
    // when the tap can block. Key-up of any other button passes.
    ensures ev.kind == KeyUpEvent && buttonFor(ev.keyCode).Some? ==>
      var b := buttonFor(ev.keyCode).value;
      && (r.verdict == Swallow <==> b in t.active)
      && (b in t.active ==> r.tap.active == t.active - {b})
      && (b in t.active ==> r.out == (if t.listeningOnly then [] else [Release(b, ev.flags)]))
  {
    if ev.kind == TapDisabledByTimeout || ev.kind == TapDisabledByUserInput then
      TapResult(t.(armed := t.installed), PassThrough, [])
    else if ev.kind == OtherEvent then
      TapResult(t, PassThrough, [])
    else
      match buttonFor(ev.keyCode)
      case None => TapResult(t, PassThrough, [])
      case Some(b) =>
        if ev.kind == KeyDownEvent then
          if b in t.active then TapResult(t, Swallow, [])
          else if !t.listeningOnly && Confirmed(answers) then
            TapResult(t.(active := t.active + {b}), Swallow, [Press(b, ev.flags)])
          else TapResult(t, PassThrough, [])
        else if b in t.active then
          TapResult(t.(active := t.active - {b}), Swallow,
                    if t.listeningOnly then [] else [Release(b, ev.flags)])
        else TapResult(t, PassThrough, [])
  }

  /** A confirmed key-down and its key-up are both swallowed, forward one
      press and one release with the events' own flags, and leave the set of
      held buttons as it was. */
  lemma SuppressedPair(t: Tap, down: TapEvent, up: TapEvent, buttonFor: KeyCode -> Option<int>, answers: seq<bool>, later: seq<bool>, b: int)
    requires !t.listeningOnly && b !in t.active && Confirmed(answers)
    requires down.kind == KeyDownEvent && up.kind == KeyUpEvent
    requires buttonFor(down.keyCode) == Some(b) && buttonFor(up.keyCode) == Some(b)
    ensures var r1 := Callback(t, down, buttonFor, answers);
      var r2 := Callback(r1.tap, up, buttonFor, later);
      && r1.verdict == Swallow && r2.verdict == Swallow
      && r1.out == [Press(b, down.flags)] && r2.out == [Release(b, up.flags)]
      && r2.tap == t
  {
    var r1 := Callback(t, down, buttonFor, answers);
    assert r1.tap.active - {b} == t.active;
  }

  /** In blocking mode the forwarded requests alternate press/release per
      button, in step with the set of held buttons. */
  lemma CallbackAlternates(t: Tap, ev: TapEvent, buttonFor: KeyCode -> Option<int>, answers: seq<bool>)
    requires !t.listeningOnly
    ensures var r := Callback(t, ev, buttonFor, answers);
      forall c :: EdgeTrace(c, c in t.active, r.out, c in r.tap.active)
  {
    var r := Callback(t, ev, buttonFor, answers);
    forall c
      ensures EdgeTrace(c, c in t.active, r.out, c in r.tap.active)
    {
      if r.out != [] {
        assert r.out[1..] == [];
      }
    }
  }

  // ---------------------------------------------------------------------------
  // Runs of the callback

  /** An event together with the ledger answers seen while handling it. */
  datatype Observed = Observed(event: TapEvent, answers: seq<bool>)

  datatype TapRunResult = TapRunResult(tap: Tap, verdicts: seq<Verdict>, out: seq<Dispatch>)

  function TapRun(t: Tap, evs: seq<Observed>, buttonFor: KeyCode -> Option<int>): (r: TapRunResult)
    ensures |r.verdicts| == |evs|
    ensures r.tap.listeningOnly == t.listeningOnly
    decreases |evs|
  {
    if evs == [] then TapRunResult(t, [], [])
    else
      var s := Callback(t, evs[0].event, buttonFor, evs[0].answers);
      var rest := TapRun(s.tap, evs[1..], buttonFor);
      TapRunResult(rest.tap, [s.verdict] + rest.verdicts, s.out + rest.out)
  }

  /** A listen-only tap that holds no button never swallows an event and
      never forwards anything, whatever the events. */
  lemma {:induction false} ListenOnlyPassesEverything(t: Tap, evs: seq<Observed>, buttonFor: KeyCode -> Option<int>)
    requires t.listeningOnly && t.active == {}
    ensures var r := TapRun(t, evs, buttonFor);
      && r.out == [] && r.tap.active == {}
      && forall i :: 0 <= i < |r.verdicts| ==> r.verdicts[i] == PassThrough
    decreases |evs|
  {
    if evs != [] {
      var s := Callback(t, evs[0].event, buttonFor, evs[0].answers);
      assert s.verdict == PassThrough && s.tap.listeningOnly && s.tap.active == {};
      ListenOnlyPassesEverything(s.tap, evs[1..], buttonFor);
    }
  }

  /** In blocking mode a whole run forwards, per button, a strictly
      alternating press/release sequence. */
  lemma {:induction false} BlockingRunAlternates(t: Tap, evs: seq<Observed>, buttonFor: KeyCode -> Option<int>)
    requires !t.listeningOnly
    ensures var r := TapRun(t, evs, buttonFor);
      forall c :: EdgeTrace(c, c in t.active, r.out, c in r.tap.active)
    decreases |evs|
  {
    if evs != [] {
      var s := Callback(t, evs[0].event, buttonFor, evs[0].answers);
      var rest := TapRun(s.tap, evs[1..], buttonFor);
      CallbackAlternates(t, evs[0].event, buttonFor, evs[0].answers);
      BlockingRunAlternates(s.tap, evs[1..], buttonFor);
      forall c
        ensures EdgeTrace(c, c in t.active, s.out + rest.out, c in rest.tap.active)
      {
        EdgeTraceAppend(c, c in t.active, s.out, c in s.tap.active, rest.out, c in rest.tap.active);
      }
    }
  }

  // ---------------------------------------------------------------------------
  // Installing the tap

  /** Whether the OS grants a blocking tap and a listen-only tap. */
  datatype Permissions = Permissions(blocking: bool, listening: bool)

  /** The tap after installation, and whether the user is asked to grant
      input monitoring. */
  datatype StartResult = StartResult(tap: Tap, prompt: bool)

  /** Install a tap of the requested kind; a refused blocking tap falls back
      to a listen-only one and prompts the user. */
  function Start(t: Tap, listenOnly: bool, p: Permissions): (r: StartResult)
    ensures r.tap.active == t.active
    // The tap can suppress exactly when blocking was requested and granted.
    ensures IsRemappingEnabled(r.tap) <==> !listenOnly && p.blocking
    // The prompt appears exactly when the fallback happens.
    ensures r.prompt <==> !listenOnly && !p.blocking
    // There is no tap only when every attempt was refused.
    ensures !r.tap.installed <==> (listenOnly || !p.blocking) && !p.listening
    ensures r.tap.armed == r.tap.installed
  {
    var created := if listenOnly then p.listening else p.blocking;
    if !created && !listenOnly then
      StartResult(Tap(t.active, true, p.listening, p.listening), true)
    else
      StartResult(Tap(t.active, listenOnly, created, created), false)
  }

  /** Turn remapping on or off; the tap is reinstalled only when the mode
      changes. */
  function SetRemappingEnabled(t: Tap, enabled: bool, p: Permissions): (r: StartResult)
    ensures r.tap.active == t.active
    ensures IsRemappingEnabled(t) == enabled ==> r == StartResult(t, false)
    ensures !enabled ==> !IsRemappingEnabled(r.tap)
    ensures enabled ==> (IsRemappingEnabled(r.tap) <==> IsRemappingEnabled(t) || p.blocking)
  {
    var listenOnly := !enabled;
    if listenOnly != t.listeningOnly then Start(t, listenOnly, p) else StartResult(t, false)
  }
}

=== FILE: hid_listener.dfy ===
/** The hardware capture channel (`HIDListener`): it classifies raw device
    reports into logical buttons, keeps the press-timestamp ledger the event
    tap correlates against, forwards the DPI buttons' edges, and debounces
    the scroll-tilt axis into one press/release pair per gesture.

    Every report is handled as one atomic step at time `now` (integer
    milliseconds); requests for the dispatcher come back as an ordered list
    of `Dispatch` values instead of direct calls. */
module HidListener {
  import opened Base
  import opened Actions

  /** A ledger entry at most this old (ms) counts as a recent press. */
  const RecentWindowMs: int := 1000
  /** Minimum time (ms) between the start of two tilt gestures. */
  const TiltCooldownMs: int := 250

  const KeyboardPage: int := 0x07
  const DpiUpCookie: int := 0x26b
  const DpiDownCookie: int := 0x26d
  const ScrollTiltCookie: int := 0x66

  const DpiUpButton: int := 13
  const DpiDownButton: int := 14
  const TiltLeftButton: int := 15
  const TiltRightButton: int := 16

  const RazerVendor: int := 0x1532
  const NagaV2Vendor: int := 0x068e

  // ---------------------------------------------------------------------------
  // Device matching

  /** The properties of a reporting device the listener inspects. */
  datatype Device = Device(vendor: Option<int>, product: Option<string>)

  /** A device is a Naga when its vendor is Razer's or the observed Naga V2
      vendor, or when its product name contains "naga" in any letter case. */
  function IsNagaDevice(d: Device): (r: bool)
    // Either vendor is enough on its own.
    ensures d.vendor == Some(RazerVendor) || d.vendor == Some(NagaV2Vendor) ==> r
    // Any other device needs a product name to be recognised.
    ensures r && d.product.None? ==> d.vendor == Some(RazerVendor) || d.vendor == Some(NagaV2Vendor)
  {
    || d.vendor == Some(RazerVendor)
    || d.vendor == Some(NagaV2Vendor)
    || (d.product.Some? && Contains(Lower(d.product.value), "naga"))
  }

  /** The product-name test is a search for "naga" at some position of the
      lower-cased name. */
  lemma NagaDeviceByName(d: Device)
    requires d.vendor != Some(RazerVendor) && d.vendor != Some(NagaV2Vendor)
    ensures IsNagaDevice(d) <==>
      d.product.Some? && exists i :: 0 <= i <= |d.product.value| - 4 && OccursAt(Lower(d.product.value), "naga", i)
  {
    if d.product.Some? {
      ContainsAt(Lower(d.product.value), "naga");
    }
  }

  // ---------------------------------------------------------------------------
  // Keyboard-page usage table

  /** The number-row usages 0x1E..0x27 are buttons 1..10, '-' (0x2D) is 11
      and '=' (0x2E) is 12; no other usage is a button. */
  function ButtonForUsage(usage: int): (r: Option<int>)
    ensures r.Some? <==> (0x1E <= usage <= 0x27 || usage == 0x2D || usage == 0x2E)
    ensures r.Some? ==> 1 <= r.value <= 12
  {
    match usage
    case 0x1E => Some(1)
    case 0x1F => Some(2)
    case 0x20 => Some(3)
    case 0x21 => Some(4)
    case 0x22 => Some(5)
    case 0x23 => Some(6)
    case 0x24 => Some(7)
    case 0x25 => Some(8)
    case 0x26 => Some(9)
    case 0x27 => Some(10)
    case 0x2D => Some(11)
    case 0x2E => Some(12)
    case _ => None
  }

  /** The usage that reports button `b`, for the twelve keyboard buttons. */
  function UsageForButton(b: int): Option<int> {
    if 1 <= b <= 10 then Some(b + 0x1D)
    else if b == 11 then Some(0x2D)
    else if b == 12 then Some(0x2E)
    else None
  }

  /** The usage table and its inverse agree in both directions, so the table
      is a bijection between its twelve usages and buttons 1..12. */
  lemma UsageTableInverse(usage: int, b: int)
    ensures ButtonForUsage(usage) == Some(b) <==> UsageForButton(b) == Some(usage)
  {
  }

  /** No two usages report the same button. */
  lemma UsageTableInjective(u1: int, u2: int)
    requires ButtonForUsage(u1).Some? && ButtonForUsage(u1) == ButtonForUsage(u2)
    ensures u1 == u2
  {
    UsageTableInverse(u1, ButtonForUsage(u1).value);
    UsageTableInverse(u2, ButtonForUsage(u2).value);
  }

  // ---------------------------------------------------------------------------
  // DPI buttons

  /** The report value is a signed 64-bit integer; its low byte in two's
      complement is the value modulo 256 (Dafny's `%` is Euclidean, so this
      holds for negative values too). DPI-up is bit 7 of that byte (mask
      0x80), DPI-down bit 6 (mask 0x40). */
  function LowByte(raw: int): int {
    raw % 0x100
  }

  predicate DpiUpPressed(raw: int) {
    LowByte(raw) >= 0x80
  }

  predicate DpiDownPressed(raw: int) {
    LowByte(raw) % 0x80 >= 0x40
  }

  /** The arithmetic reading agrees with masking the low byte. */
  lemma DpiMasks(raw: int)
    ensures DpiUpPressed(raw) <==> (LowByte(raw) as bv8) & 0x80 != 0
    ensures DpiDownPressed(raw) <==> (LowByte(raw) as bv8) & 0x40 != 0
  {
    LowByteBits(LowByte(raw));
  }

  lemma LowByteBits(x: int)
    requires 0 <= x < 0x100
    ensures x >= 0x80 <==> (x as bv8) & 0x80 != 0
    ensures x % 0x80 >= 0x40 <==> (x as bv8) & 0x40 != 0
  {
  }

  // ---------------------------------------------------------------------------
  // Press-timestamp ledger

  /** Most recent press time (ms) of each logical button. */
  type Ledger = map<int, int>

  function Record(l: Ledger, b: int, now: int): (r: Ledger)
    ensures r.Keys == l.Keys + {b}
    ensures r[b] == now
    ensures forall c :: c in l && c != b ==> r[c] == l[c]
  {
    l[b := now]
  }

  /** Button `b` was pressed within the recent window before `now`. */
  function WasRecentPress(l: Ledger, b: int, now: int): (r: bool)
    // Only a recorded press can be recent.
    ensures r ==> b in l
    // A recorded press is recent exactly while it lies no more than the
    // window before `now`.
    ensures b in l ==> (r <==> l[b] >= now - RecentWindowMs)
  {
    b in l && now - l[b] <= RecentWindowMs
  }

  /** After recording `b` at `t`, it is recent exactly while `now - t` is
      within the window; the other buttons' answers do not change. */
  lemma RecordThenQuery(l: Ledger, b: int, t: int, c: int, now: int)
    ensures WasRecentPress(Record(l, b, t), b, now) <==> now - t <= RecentWindowMs
    ensures c != b ==> WasRecentPress(Record(l, b, t), c, now) == WasRecentPress(l, c, now)
  {
  }

  /** A button with no entry was never pressed recently. */
  lemma AbsentIsNotRecent(l: Ledger, b: int, now: int)
    requires b !in l
    ensures !WasRecentPress(l, b, now)
  {
  }

  // ---------------------------------------------------------------------------
  // Listener state

  /** The tilt debouncer: last raw axis value, whether the current gesture
      has fired, and when the last gesture fired (ms). */
  datatype TiltState = TiltState(lastValue: int, fired: bool, lastGestureTime: int)

  /** Ledger, stored pressed state of the synthetic buttons (absent = not
      pressed) and the tilt debouncer. */
  datatype HidState = HidState(ledger: Ledger, synthetic: map<int, bool>, tilt: TiltState)

  datatype HidStep = HidStep(state: HidState, out: seq<Dispatch>)

  const InitialHid: HidState := HidState(map[], map[], TiltState(0, false, 0))

  predicate Pressed(st: HidState, b: int) {
    b in st.synthetic && st.synthetic[b]
  }

  /** Forward a synthetic button's new state, but only on an edge. */
  function HandleSynthetic(st: HidState, b: int, pressed: bool, now: int, remapping: bool): (r: HidStep)
    // No edge: nothing is recorded, stored or dispatched.
    ensures Pressed(st, b) == pressed ==> r == HidStep(st, [])
    // The stored state follows the input for `b` only.
    ensures Pressed(r.state, b) == pressed
    ensures forall c :: c != b ==> Pressed(r.state, c) == Pressed(st, c)
    ensures r.state.tilt == st.tilt
    // Only a press edge stamps the ledger.
    ensures Pressed(st, b) != pressed && pressed ==> r.state.ledger == Record(st.ledger, b, now)
    ensures !(Pressed(st, b) != pressed && pressed) ==> r.state.ledger == st.ledger
    // One request, about `b` and of the edge's kind, when remapping is on.
    ensures |r.out| <= 1
    ensures r.out != [] <==> Pressed(st, b) != pressed && remapping
    ensures r.out != [] ==> r.out[0].button == b && r.out[0].Press? == pressed && r.out[0].mods == {}
  {
    if Pressed(st, b) == pressed then HidStep(st, [])
    else
      var ledger := if pressed then Record(st.ledger, b, now) else st.ledger;
      var st' := st.(ledger := ledger, synthetic := st.synthetic[b := pressed]);
      var out := if !remapping then [] else if pressed then [Press(b, {})] else [Release(b, {})];
      HidStep(st', out)
  }

  /** With remapping on, the requests `HandleSynthetic` emits alternate with
      the stored state of every button. */
  lemma HandleSyntheticAlternates(st: HidState, b: int, pressed: bool, now: int)
    ensures var r := HandleSynthetic(st, b, pressed, now, true);
      forall c :: EdgeTrace(c, Pressed(st, c), r.out, Pressed(r.state, c))
  {
    var r := HandleSynthetic(st, b, pressed, now, true);
    forall c
      ensures EdgeTrace(c, Pressed(st, c), r.out, Pressed(r.state, c))
    {
      if r.out != [] && c == b {
        assert r.out[1..] == [];
      } else if r.out != [] {
        assert r.out[1..] == [];
      }
    }
  }

  /** `HandleSynthetic` run after an earlier step, its requests appended. */
  function Then(s: HidStep, b: int, pressed: bool, now: int, remapping: bool): HidStep {
    var n := HandleSynthetic(s.state, b, pressed, now, remapping);
    HidStep(n.state, s.out + n.out)
  }

  lemma ThenAlternates(s: HidStep, st0: HidState, b: int, pressed: bool, now: int)
    requires forall c :: EdgeTrace(c, Pressed(st0, c), s.out, Pressed(s.state, c))
    ensures var r := Then(s, b, pressed, now, true);
      forall c :: EdgeTrace(c, Pressed(st0, c), r.out, Pressed(r.state, c))
  {
    var n := HandleSynthetic(s.state, b, pressed, now, true);
    HandleSyntheticAlternates(s.state, b, pressed, now);
    forall c
      ensures EdgeTrace(c, Pressed(st0, c), s.out + n.out, Pressed(n.state, c))
    {
      EdgeTraceAppend(c, Pressed(st0, c), s.out, Pressed(s.state, c), n.out, Pressed(n.state, c));
    }
  }

  // ---------------------------------------------------------------------------
  // Scroll-tilt debouncer

  datatype TiltDecision = FireLeft | FireRight | ReleaseBoth | NoAction

  datatype TiltOutcome = TiltOutcome(state: TiltState, decision: TiltDecision)

  /** A new gesture starts: the axis leaves neutral, no gesture is in
      progress, and the cooldown since the last gesture has elapsed. */
  predicate StartsGesture(t: TiltState, v: int, now: int) {
    t.lastValue == 0 && v != 0 && !t.fired && now - t.lastGestureTime >= TiltCooldownMs
  }

  /** The gesture in progress ends: the axis returns to neutral. */
  predicate EndsGesture(t: TiltState, v: int) {
    t.lastValue != 0 && v == 0 && t.fired
  }

  /** One raw axis value through the debouncer. */
  function TiltStep(t: TiltState, v: int, now: int): (r: TiltOutcome)
    ensures r.state.lastValue == v
    ensures r.decision == FireLeft <==> StartsGesture(t, v, now) && v == -1
    ensures r.decision == FireRight <==> StartsGesture(t, v, now) && v == 1
    ensures r.decision == ReleaseBoth <==> EndsGesture(t, v)
    ensures r.state.fired <==> StartsGesture(t, v, now) || (t.fired && !EndsGesture(t, v))
    ensures r.state.lastGestureTime == if StartsGesture(t, v, now) then now else t.lastGestureTime
  {
    var isNewTilt := t.lastValue == 0 && v != 0;
    var isRelease := t.lastValue != 0 && v == 0;
    if isNewTilt && !t.fired && now - t.lastGestureTime >= TiltCooldownMs then
      TiltOutcome(TiltState(v, true, now), if v == -1 then FireLeft else if v == 1 then FireRight else NoAction)
    else if isRelease && t.fired then
      TiltOutcome(TiltState(v, false, t.lastGestureTime), ReleaseBoth)
    else
      // Duplicate values mid-gesture, and neutral values while idle.
      TiltOutcome(t.(lastValue := v), NoAction)
  }

  /** The request that moves button `b` to `pressed`: none when it is there
      already. */
  function EdgeRequest(st: HidState, b: int, pressed: bool): seq<Dispatch> {
    if Pressed(st, b) == pressed then [] else if pressed then [Press(b, {})] else [Release(b, {})]
  }

  /** Run the debouncer, then press/release the tilt buttons it decided on.
      Firing one direction first releases the other one. */
  function HandleTilt(st: HidState, v: int, now: int, remapping: bool): (r: HidStep)
    ensures r.state.tilt == TiltStep(st.tilt, v, now).state
    // Only the two tilt buttons ever change.
    ensures forall c :: c != TiltLeftButton && c != TiltRightButton ==> Pressed(r.state, c) == Pressed(st, c)
    ensures !remapping ==> r.out == []
    // Nothing to do: only the debouncer moves.
    ensures TiltStep(st.tilt, v, now).decision == NoAction ==>
      r == HidStep(st.(tilt := TiltStep(st.tilt, v, now).state), [])
    // Left: release right if it was held, then press left if it was not.
    ensures TiltStep(st.tilt, v, now).decision == FireLeft ==>
      && Pressed(r.state, TiltLeftButton) && !Pressed(r.state, TiltRightButton)
      && (remapping ==> r.out == EdgeRequest(st, TiltRightButton, false) + EdgeRequest(st, TiltLeftButton, true))
    // Right: the mirror image.
    ensures TiltStep(st.tilt, v, now).decision == FireRight ==>
      && Pressed(r.state, TiltRightButton) && !Pressed(r.state, TiltLeftButton)
      && (remapping ==> r.out == EdgeRequest(st, TiltLeftButton, false) + EdgeRequest(st, TiltRightButton, true))
    // End of a gesture: release whichever of the two is held, left first.
    ensures TiltStep(st.tilt, v, now).decision == ReleaseBoth ==>
      && !Pressed(r.state, TiltLeftButton) && !Pressed(r.state, TiltRightButton)
      && (remapping ==> r.out == EdgeRequest(st, TiltLeftButton, false) + EdgeRequest(st, TiltRightButton, false))
  {
    var o := TiltStep(st.tilt, v, now);
    var s0 := HidStep(st.(tilt := o.state), []);
    match o.decision
    case FireLeft =>
      Then(Then(s0, TiltRightButton, false, now, remapping), TiltLeftButton, true, now, remapping)
    case FireRight =>
      Then(Then(s0, TiltLeftButton, false, now, remapping), TiltRightButton, true, now, remapping)
    case ReleaseBoth =>
      Then(Then(s0, TiltLeftButton, false, now, remapping), TiltRightButton, false, now, remapping)
    case NoAction => s0
  }

  // ---------------------------------------------------------------------------
  // Report handling

  /** One input value: the reporting device, the element's usage page, usage
      and cookie, and the integer value. */
  datatype HidReport = HidReport(device: Device, usagePage: int, usage: int, cookie: int, value: int)

  function HandleValue(st: HidState, rep: HidReport, now: int, remapping: bool): (r: HidStep)
    // Reports from other devices are invisible.
    ensures !IsNagaDevice(rep.device) ==> r == HidStep(st, [])
    // Keyboard-page reports only ever touch the ledger and dispatch nothing.
    ensures rep.usagePage == KeyboardPage ==>
      r.out == [] && r.state.synthetic == st.synthetic && r.state.tilt == st.tilt
    // With remapping off nothing reaches the dispatcher.
    ensures !remapping ==> r.out == []
    // Any other element of a Naga is only logged.
    ensures rep.usagePage != KeyboardPage && rep.cookie !in {DpiUpCookie, DpiDownCookie, ScrollTiltCookie} ==>
      r == HidStep(st, [])
  {
    if rep.usagePage != KeyboardPage then
      if !IsNagaDevice(rep.device) then HidStep(st, [])
      else if rep.cookie == DpiUpCookie then
        HandleSynthetic(st, DpiUpButton, DpiUpPressed(rep.value), now, remapping)
      else if rep.cookie == DpiDownCookie then
        HandleSynthetic(st, DpiDownButton, DpiDownPressed(rep.value), now, remapping)
      else if rep.cookie == ScrollTiltCookie then
        HandleTilt(st, rep.value, now, remapping)
      else
        HidStep(st, [])  // other elements are only logged
    else if rep.value == 0 || !IsNagaDevice(rep.device) then
      HidStep(st, [])
    else
      match ButtonForUsage(rep.usage)
      case None => HidStep(st, [])
      case Some(b) => HidStep(st.(ledger := Record(st.ledger, b, now)), [])
  }

  /** A keyboard-page report changes the ledger only when it is a key-down
      of a mapped usage from a Naga, and then stamps exactly that button. */
  lemma KeyboardReportLedger(st: HidState, rep: HidReport, now: int, remapping: bool)
    requires rep.usagePage == KeyboardPage
    ensures var r := HandleValue(st, rep, now, remapping);
      if rep.value != 0 && IsNagaDevice(rep.device) && ButtonForUsage(rep.usage).Some?
      then r.state.ledger == Record(st.ledger, ButtonForUsage(rep.usage).value, now)
      else r.state == st
  {
  }

  /** A DPI report decodes its bit and forwards only a change of it. */
  lemma DpiReportEdges(st: HidState, rep: HidReport, now: int)
    requires IsNagaDevice(rep.device) && rep.usagePage != KeyboardPage
    requires rep.cookie == DpiUpCookie || rep.cookie == DpiDownCookie
    ensures var b := if rep.cookie == DpiUpCookie then DpiUpButton else DpiDownButton;
      var down := if rep.cookie == DpiUpCookie then DpiUpPressed(rep.value) else DpiDownPressed(rep.value);
      var r := HandleValue(st, rep, now, true);
      && Pressed(r.state, b) == down
      && (r.out == [] <==> Pressed(st, b) == down)
      && (r.out != [] ==> r.out == (if down then [Press(b, {})] else [Release(b, {})]))
  {
  }

  // ---------------------------------------------------------------------------
  // Invariants and runs

  /** Both tilt buttons are never held at once, and neither is held while no
      gesture is in progress. */
  predicate TiltInvariant(st: HidState) {
    && !(Pressed(st, TiltLeftButton) && Pressed(st, TiltRightButton))
    && (!st.tilt.fired ==> !Pressed(st, TiltLeftButton) && !Pressed(st, TiltRightButton))
  }

  lemma HandleValuePreservesTiltInvariant(st: HidState, rep: HidReport, now: int, remapping: bool)
    requires TiltInvariant(st)
    ensures TiltInvariant(HandleValue(st, rep, now, remapping).state)
  {
    if rep.usagePage != KeyboardPage && IsNagaDevice(rep.device)
      && rep.cookie != DpiUpCookie && rep.cookie != DpiDownCookie && rep.cookie == ScrollTiltCookie
    {
      var o := TiltStep(st.tilt, rep.value, now);
      var s0 := HidStep(st.(tilt := o.state), []);
      assert forall c :: Pressed(s0.state, c) == Pressed(st, c);
      match o.decision
      case FireLeft =>
        var s1 := Then(s0, TiltRightButton, false, now, remapping);
        var s2 := Then(s1, TiltLeftButton, true, now, remapping);
        assert !Pressed(s2.state, TiltRightButton) && s2.state.tilt.fired;
      case FireRight =>
        var s1 := Then(s0, TiltLeftButton, false, now, remapping);
        var s2 := Then(s1, TiltRightButton, true, now, remapping);
        assert !Pressed(s2.state, TiltLeftButton) && s2.state.tilt.fired;
      case ReleaseBoth =>
        var s1 := Then(s0, TiltLeftButton, false, now, remapping);
        var s2 := Then(s1, TiltRightButton, false, now, remapping);
        assert !Pressed(s2.state, TiltLeftButton) && !Pressed(s2.state, TiltRightButton);
      case NoAction =>
        assert o.state.fired || !st.tilt.fired;
    }
  }

  /** A tilt report from a Naga, with remapping on and the tilt invariant
      holding: a left gesture start presses exactly button 15, a right one
      exactly button 16, and a gesture's end releases whichever is held. */
  lemma TiltReportEdges(st: HidState, rep: HidReport, now: int)
    requires IsNagaDevice(rep.device) && rep.usagePage != KeyboardPage && rep.cookie == ScrollTiltCookie
    requires TiltInvariant(st)
    ensures var d := TiltStep(st.tilt, rep.value, now).decision;
      var r := HandleValue(st, rep, now, true);
      && (d == FireLeft ==> r.out == [Press(TiltLeftButton, {})])
      && (d == FireRight ==> r.out == [Press(TiltRightButton, {})])
      && (d == ReleaseBoth ==> r.out == EdgeRequest(st, TiltLeftButton, false) + EdgeRequest(st, TiltRightButton, false))
      && (d == NoAction ==> r.out == [] && r.state.synthetic == st.synthetic)
  {
    var d := TiltStep(st.tilt, rep.value, now).decision;
    if d == FireLeft || d == FireRight {
      assert !st.tilt.fired;
    }
  }

  /** With remapping on, every report's requests alternate press/release per
      button, in step with the stored synthetic state. */
  lemma HandleValueAlternates(st: HidState, rep: HidReport, now: int)
    ensures var r := HandleValue(st, rep, now, true);
      forall c :: EdgeTrace(c, Pressed(st, c), r.out, Pressed(r.state, c))
  {
    var r := HandleValue(st, rep, now, true);
    if rep.usagePage != KeyboardPage && IsNagaDevice(rep.device) {
      if rep.cookie == DpiUpCookie {
        HandleSyntheticAlternates(st, DpiUpButton, DpiUpPressed(rep.value), now);
      } else if rep.cookie == DpiDownCookie {
        HandleSyntheticAlternates(st, DpiDownButton, DpiDownPressed(rep.value), now);
      } else if rep.cookie == ScrollTiltCookie {
        var o := TiltStep(st.tilt, rep.value, now);
        var s0 := HidStep(st.(tilt := o.state), []);
        assert forall c :: Pressed(s0.state, c) == Pressed(st, c);
        assert forall c :: EdgeTrace(c, Pressed(st, c), s0.out, Pressed(s0.state, c));
        var b1, p1, b2, p2 := TiltLeftButton, false, TiltRightButton, false;
        if o.decision == FireLeft {
          b1, p1, b2, p2 := TiltRightButton, false, TiltLeftButton, true;
        } else if o.decision == FireRight {
          p2 := true;
        }
        if o.decision != NoAction {
          var s1 := Then(s0, b1, p1, now, true);
          ThenAlternates(s0, st, b1, p1, now);
          ThenAlternates(s1, st, b2, p2, now);
          assert r == Then(s1, b2, p2, now, true);
        }
      }
    }
  }

  /** One timed report in a run of the listener. */
  datatype HidInput = HidInput(report: HidReport, now: int, remapping: bool)

  /** Feed reports in arrival order, collecting the requests in order. */
  function Run(st: HidState, ins: seq<HidInput>): HidStep
    decreases |ins|
  {
    if ins == [] then HidStep(st, [])
    else
      var s := HandleValue(st, ins[0].report, ins[0].now, ins[0].remapping);
      var rest := Run(s.state, ins[1..]);
      HidStep(rest.state, s.out + rest.out)
  }

  lemma {:induction false} RunPreservesTiltInvariant(st: HidState, ins: seq<HidInput>)
    requires TiltInvariant(st)
    ensures TiltInvariant(Run(st, ins).state)
    decreases |ins|
  {
    if ins != [] {
      var s := HandleValue(st, ins[0].report, ins[0].now, ins[0].remapping);
      HandleValuePreservesTiltInvariant(st, ins[0].report, ins[0].now, ins[0].remapping);
      RunPreservesTiltInvariant(s.state, ins[1..]);
    }
  }

  /** The tilt invariant holds after any sequence of reports from start-up. */
  lemma TiltInvariantFromStart(ins: seq<HidInput>)
    ensures TiltInvariant(Run(InitialHid, ins).state)
  {
    RunPreservesTiltInvariant(InitialHid, ins);
  }

  /** With remapping on throughout, a whole run never presses a synthetic
      button twice without releasing it in between, nor releases one that
      is not pressed. */
  lemma {:induction false} RunAlternates(st: HidState, ins: seq<HidInput>)
    requires forall i :: 0 <= i < |ins| ==> ins[i].remapping
    ensures var r := Run(st, ins);
      forall c :: EdgeTrace(c, Pressed(st, c), r.out, Pressed(r.state, c))
    decreases |ins|
  {
    if ins != [] {
      var s := HandleValue(st, ins[0].report, ins[0].now, true);
      var rest := Run(s.state, ins[1..]);
      HandleValueAlternates(st, ins[0].report, ins[0].now);
      RunAlternates(s.state, ins[1..]);
      forall c
        ensures EdgeTrace(c, Pressed(st, c), s.out + rest.out, Pressed(rest.state, c))
      {
        EdgeTraceAppend(c, Pressed(st, c), s.out, Pressed(s.state, c), rest.out, Pressed(rest.state, c));
      }
    }
  }

  /** A tilt report from device `d` at time `now`. */
  function Tilt(d: Device, v: int, now: int): HidInput {
    HidInput(HidReport(d, 0x0C, 0x238, ScrollTiltCookie, v), now, true)
  }

  /** A noisy left tilt -1, 0, -1, 0 arriving within the cooldown yields
      exactly one press of tilt-left and one release of it. */
  lemma TiltBurstIsOneGesture(st: HidState, d: Device, t0: int, t1: int, t2: int, t3: int)
    requires IsNagaDevice(d)
    requires st.tilt.lastValue == 0 && !st.tilt.fired && t0 - st.tilt.lastGestureTime >= TiltCooldownMs
    requires !Pressed(st, TiltLeftButton) && !Pressed(st, TiltRightButton)
    requires t2 < t0 + TiltCooldownMs
    ensures Run(st, [Tilt(d, -1, t0), Tilt(d, 0, t1), Tilt(d, -1, t2), Tilt(d, 0, t3)]).out
         == [Press(TiltLeftButton, {}), Release(TiltLeftButton, {})]
  {
    var ins := [Tilt(d, -1, t0), Tilt(d, 0, t1), Tilt(d, -1, t2), Tilt(d, 0, t3)];
    var s1 := HandleValue(st, ins[0].report, t0, true);
    assert s1.out == [Press(TiltLeftButton, {})];
    assert s1.state.tilt == TiltState(-1, true, t0);
    assert Pressed(s1.state, TiltLeftButton) && !Pressed(s1.state, TiltRightButton);
    var s2 := HandleValue(s1.state, ins[1].report, t1, true);
    assert s2.out == [Release(TiltLeftButton, {})];
    assert s2.state.tilt == TiltState(0, false, t0);
    var s3 := HandleValue(s2.state, ins[2].report, t2, true);
    assert s3.out == [];
    assert s3.state.tilt == TiltState(-1, false, t0);
    var s4 := HandleValue(s3.state, ins[3].report, t3, true);
    assert s4.out == [];
    assert ins[1..][1..][1..][1..] == [];
    assert Run(s3.state, ins[3..]).out == [];
    assert Run(s2.state, ins[2..]).out == [];
    assert Run(s1.state, ins[1..]).out == [Release(TiltLeftButton, {})];
  }

  /** A second tilt starting less than the cooldown after the previous
      gesture fired is swallowed entirely. */
  lemma CooldownSuppressesNextGesture(st: HidState, d: Device, v: int, now: int)
    requires IsNagaDevice(d)
    requires !st.tilt.fired && now - st.tilt.lastGestureTime < TiltCooldownMs
    ensures var r := HandleValue(st, Tilt(d, v, now).report, now, true);
      r.out == [] && !r.state.tilt.fired && r.state.synthetic == st.synthetic
  {
  }
}
